=== FILE: README.md ===
# webpack-userscript: header and build-info pipeline in Dafny

This project models the core of the webpack-userscript plugin. The plugin
turns a package's `package.json` and a header template into a userscript
header for every JavaScript output file of a webpack compilation. The
model covers:

- **Template interpolation** (`interpolate`, module `Utils`). A
  `[identifier]` token is replaced by the matching value of a build-info
  record; a backslash escapes a token. The regular expression's left-to-right
  scan is the function `Lex`, which cuts the template into literal characters,
  tokens and escaped tokens. The replacement callback is `Render`.
- **Package discovery and JSON reading** (`findPackage`, `readJSON`,
  `PackageError`, `InvalidJSON`, module `Fs`). The file system is an oracle.
  `stat` answers "regular file", "something else" or "failed". `readFile`
  returns text or an error. `JSON.parse` is an abstract parser. Node's
  `path.dirname`, `extname`, `basename` and a simplified `join` are in
  module `Paths`.
- **The header schema** (types/schema/header.ts, module `HeaderSchema`). It
  is a validity predicate over headers, each tag's value being a string, a
  string list, a boolean or a record. A record is an ordered entry list, so
  that `Object.fromEntries` keeping the last of two colliding keys can be
  stated.
- **The plugin's pure statics** (module `PluginLogic`):
  - `readPackageInfo` normalisation;
  - `resolveHeaderPath`;
  - `createHeader`, with its defaults, the `match` rule, override precedence
    and validation;
  - `interpolateHeaders`;
  - the per-file build-info step of `processAssets`, as left folds over the
    entry chunks and their files;
  - the `fileValidity` update of `invalidate`;
  - the SSRI cache path and map.
- **The plugin object** (module `Plugin`). The class `UserscriptPlugin`
  holds the fields the source mutates:
  - `fileValidity`, `chunkFileInfo`, `ssriCache`;
  - `packageInfo`, `headerPath`, `rawHeaders`.

  Its hook bodies are methods. Each is proved against the functions above,
  and each preserves the invariant `Valid()`. `Valid()` says:
  - only tracked files have a freshness entry;
  - the header path, once resolved, is the resolved one;
  - a stored header is valid;
  - a fresh header file has been read, unless the SSRI cache file has the same path (then the SSRI hook marks it fresh without reading a header);
  - every recorded entry belongs to a script file.

  The nested loops of `processAssets` are `while` loops, proved equal to the
  folds.

The source is unfinished, so the model follows its evident intent:
- Line 67 of lib/plugins/UserscriptPlugin.ts (`compiler.hooks.;`) is not
  modelled.
- The unqualified `fileValidity`, `ssriCache`, `packageInfo`,
  `chunkFileInfo` and `rawHeaders` in the hook bodies (lines 85-92, 106, 122,
  145) are read as the object's fields.
- `loadHeaders`, which is never registered, runs as the third
  `beforeCompile` step, after the package info and the SSRI cache
  (`Plugin.UserscriptPlugin.BeforeCompile`).

Two details of `createHeader`, modelled as the code has them:
- it puts the package's homepage under the tag `homepage`;
- the default `match` is suppressed only by a *truthy* `include` override:
  an empty string does not suppress it, an empty array does.

## Model

| member | source | states |
|---|---|---|
| Utils.Interpolate | lib/utils.ts:3-12 | `interpolate(tpl, info)`: the global scan `Lex` followed by the replacement callback on every piece; what it does to each kind of piece is stated by the lemmas below, from `LexRoundTrip` to `InterpolateLoneChar` |
| Utils.LetterRun | lib/utils.ts:8 | the run of ASCII letters `[a-zA-Z]+` at the front of a string: all letters, and the next character is not one |
| Utils.TokenAt | lib/utils.ts:8 | a token found at the front is a non-empty letter word and the text starts with `[word]` |
| Utils.Render | lib/utils.ts:9-11 | the replacement callback over the scanned pieces: a known token becomes its value, an unknown token and an escaped token become `[word]`, and any other character is copied; `RenderAppend` states that rendering distributes over concatenation |
| Utils.Lex | lib/utils.ts:7-9 | the global scan yields only well-formed pieces (tokens and escapes carry words) |
| Utils.LexRoundTrip | lib/utils.ts:7-11 | the scan loses nothing: concatenating the pieces' source texts gives back the template |
| Utils.RenderAppend | lib/utils.ts:7-11 | replacement works piece by piece: rendering a concatenation is the concatenation of the renderings |
| Utils.TokenAtBracketed | lib/utils.ts:8 | `[w]` followed by anything is recognised as the token `w` |
| Utils.InterpolateToken | lib/utils.ts:8-10 | an unescaped `[tok]` becomes `info[tok]` when `tok` is a key, and stays verbatim otherwise; the rest is processed the same way |
| Utils.InterpolateEscaped | lib/utils.ts:8-10 | `\[tok]` becomes `[tok]`, dropping exactly one backslash, whether or not `tok` is known |
| Utils.InterpolatePlain | lib/utils.ts:7-11 | a character that is neither `\` nor `[` is copied and the scan continues after it |
| Utils.InterpolateLoneChar | lib/utils.ts:7-11 | a `\` or `[` that starts no match is copied, and the scan moves on by one character, so a token may start right after it |
| Utils.InterpolateLoneBackslash | lib/utils.ts:8-10 | a backslash before a non-token is kept: `\x` stays `\x` |
| Utils.InterpolateDoubleBracket | lib/utils.ts:8-10 | in `[[a]` the first `[` starts no token and is copied, and the token `[a]` after it is replaced |
| Utils.InterpolateTokenFree | lib/utils.ts:7-11 | a template in which no token starts is returned unchanged |
| Utils.InterpolateNoRescan | lib/utils.ts:7-11 | inserted values are not scanned again: `[a]` with a = `[b]` gives `[b]` even though b is a key |
| Utils.InterpolateIndependentTokens | lib/utils.ts:8 | with the `/g` flag every token is replaced: `[n]-[v]` gives `info[n]-info[v]` |
| Utils.InterpolateUnknown | lib/utils.ts:10 | `[unknown]` with no such key stays `[unknown]` |
| Utils.InterpolateNotAWord | lib/utils.ts:8 | `[x]` where `x` is not a non-empty letter word (and holds no bracket) passes through unchanged |
| Utils.InterpolateNonTokens | lib/utils.ts:8 | `[]`, `[a1]` and `[a-b]` pass through unchanged |
| Utils.DecimalString | lib/utils.ts:10 | `String(n)` of a non-negative integer: a string of decimal digits whose value is exactly `n`, with no leading zero unless it is "0" |
| Paths.Dirname | lib/fs.ts:38 | Node's POSIX `path.dirname`; `DirnameProgress`, `TopIsRootOrDot` and `DirnameJoin` state its behaviour |
| Paths.Join | lib/fs.ts:37 | `path.join(dir, name)` for one file name; `DirnameJoin` states that `dirname` gives the directory back |
| Paths.DirnameJoin | lib/fs.ts:37-38 | for a file name without a slash and a directory without a trailing slash (or "/", or "."), `dirname(join(dir, name))` is `dir` |
| Paths.DirnameProgress | lib/fs.ts:38 | `dirname` moves strictly up (a rank decreases) unless the directory is its own parent |
| Paths.TopIsRootOrDot | lib/fs.ts:38 | the only directories equal to their `dirname` are "/" and "." |
| Paths.LastSegment | lib/plugins/UserscriptPlugin.ts:130-134 | the last path segment is a suffix of the path with no slash in it |
| Paths.LastSegmentMaximal | lib/plugins/UserscriptPlugin.ts:130-134 | the last segment is the whole path or starts right after a slash, so it is the longest slash-free suffix, as `path.basename` takes it |
| Paths.Extname | lib/plugins/UserscriptPlugin.ts:118 | Node's `path.extname` on the last segment: from the last dot, or "" when the segment has no dot after its first character or is ".."; `ExtnameJs` states the ".js" case |
| Paths.Basename | lib/plugins/UserscriptPlugin.ts:130-134 | Node's `path.basename(p, suffix)`: the last segment, without `suffix` when it ends with it and is longer; `FileBasenameStripsSuffix` states it for both suffixes |
| Paths.ExtnameJs | lib/plugins/UserscriptPlugin.ts:118 | `extname` is ".js" exactly when the last segment ends in ".js" after at least one character |
| Fs.PackageErrorMessageNamesDir | lib/fs.ts:24-29 | a PackageError is named "PackageError"; its message embeds the directory after the fixed prefix, so different directories give different messages |
| Fs.InvalidJsonMessageShape | lib/fs.ts:54-59 | an InvalidJSON error is named "InvalidJSON" and its message is the parser's message followed by ` (<file>)` |
| Fs.TopOf | lib/fs.ts:37-51 | walking up from any directory reaches a directory that is its own parent |
| Fs.Ancestors | lib/fs.ts:37-51 | the chain of directories the loop visits: it starts at `cwd`, each next one is the `dirname` of the previous, and it ends at the top |
| Fs.Expected | lib/fs.ts:31-52 | the result findPackage should settle on: the package root, else a PackageError naming the top; `PackageRootIsFirst` says the root is the first ancestor holding a regular package.json, `RunHalts` that the loop as written reaches this result when it halts |
| Fs.PackageRootIsFirst | lib/fs.ts:37-50 | the package root is the first directory of the chain whose package.json is a regular file; no root means no directory of the chain has one |
| Fs.StepUp | lib/fs.ts:44-50 | where the stat does not find a regular file below the top, the loop moves to the parent without changing the outcome or the halting condition |
| Fs.LoopStep | lib/fs.ts:38-50 | one iteration: a regular package.json returns the directory; a failed stat throws at a directory equal to its parent and otherwise moves up; any other entry moves up, even from the top (used by `StepUp`, `RunHalts`, `RunDiverges`) |
| Fs.Run | lib/fs.ts:37-51 | the loop as written, run for at most a given number of iterations; `RunHalts` and `RunDiverges` say exactly when some number of iterations finishes and with what |
| Fs.RunHalts | lib/fs.ts:37-51 | when the halting condition holds, the loop as written finishes within one iteration per ancestor with the expected outcome |
| Fs.RunDiverges | lib/fs.ts:37-51 | otherwise (no regular package.json and a top whose package.json is something else) no number of iterations finishes |
| Fs.TopNonFileLoops | lib/fs.ts:37-51 | concrete case: starting at "/" where "/package.json" is a directory, the loop never ends, while the intended result is a PackageError for "/" |
| Fs.FindPackageAsWritten | lib/fs.ts:31-52 | the loop as written, when it halts, returns the first ancestor with a regular package.json or throws a PackageError naming the top (not `cwd`) |
| Fs.FindPackage | lib/fs.ts:31-52 | the corrected loop always terminates, with the same result wherever the loop as written terminates |
| Fs.PackageErrorMeansTopStatFailed | lib/fs.ts:44-48 | a PackageError from the loop as written means the top's package.json could not be stat'ed |
| Fs.ReadJson | lib/fs.ts:61-71 | success is exactly a successful read and parse, giving the parsed value; a read error passes through unwrapped; a parse error becomes InvalidJSON with the parser's message and the file |
| HeaderSchema.TagValid | types/schema/header.ts:10-49 | the type each tag demands: a string for the string tags, a string or string list for the repeatable ones, a record of strings for `resource` and `antifeature`, a boolean for `noframes` and `unwrap`, a boolean or string for `nocompat`, one of five literals for `run-at`, anything for other tags; stated tag by tag by the lemmas below |
| HeaderSchema.ValidHeader | types/schema/header.ts:10-50 | a header the schema accepts: `name` and `version` present and every tag of its declared type (`ValidHeaderNameVersion`, `ValidHeaderExamples`) |
| HeaderSchema.TagClassesDisjoint | types/schema/header.ts:10-47 | the string, repeatable, record and boolean tags, `nocompat` and `run-at` are pairwise distinct, so each known tag has exactly one declared type |
| HeaderSchema.ValidHeaderNameVersion | types/schema/header.ts:11-12 | a valid header has `name` and `version`, both strings; a header lacking either is rejected |
| HeaderSchema.RunAtValid | types/schema/header.ts:42-47 | `run-at` is valid exactly when it is a string among the five literals |
| HeaderSchema.FlagTagsValid | types/schema/header.ts:38-41 | `nocompat` is a boolean or a string; `noframes` and `unwrap` are booleans |
| HeaderSchema.OtherTagValid | types/schema/header.ts:49 | a tag the type does not name accepts any value |
| HeaderSchema.ValidHeaderExamples | types/schema/header.ts:10-50 | concrete headers accepted (a string-list `match`, a custom boolean tag) and rejected (a list `version`, an unknown `run-at`, a non-string `resource` entry) |
| HeaderSchema.SetEntry | lib/plugins/UserscriptPlugin.ts:307-312 | assigning a key in a record adds that key and only that key, growing the record only when the key is new |
| HeaderSchema.SetEntryUnique | lib/plugins/UserscriptPlugin.ts:307-312 | assigning a key keeps the record's keys distinct |
| HeaderSchema.SetEntryLookup | lib/plugins/UserscriptPlugin.ts:307-312 | after assigning `k := v`, looking up `k` gives `v` and every other key its old value |
| HeaderSchema.SetEntryAbsent | lib/plugins/UserscriptPlugin.ts:307-312 | assigning a key the record lacks appends it after the existing entries, in insertion order (integer-like keys: see "Left out") |
| HeaderSchema.FromEntriesKeys | lib/plugins/UserscriptPlugin.ts:307-312 | `Object.fromEntries` gives distinct keys, exactly the keys of the entries |
| HeaderSchema.FromEntriesLastWins | lib/plugins/UserscriptPlugin.ts:307-312 | for a key listed several times, `Object.fromEntries` keeps the last value |
| HeaderSchema.FromEntriesIdentity | lib/plugins/UserscriptPlugin.ts:307-312 | entries with distinct keys come back unchanged |
| PluginLogic.BugsUrl | lib/plugins/UserscriptPlugin.ts:248-253 | a non-empty `bugs` result is the string `bugs` or the string `bugs.url` |
| PluginLogic.BugsPrecedence | lib/plugins/UserscriptPlugin.ts:248-253 | `bugs.url` wins when it is a string, a string `bugs` is used as is, anything else gives "" |
| PluginLogic.Normalize | lib/plugins/UserscriptPlugin.ts:241-254 | the package info built from a parsed package.json: each field as given or "", `bugs` as `BugsUrl` reads it; `NormalizeDescribe` and `NormalizeMissing` state both directions |
| PluginLogic.NormalizeDescribe | lib/plugins/UserscriptPlugin.ts:241-254 | normalisation keeps every present field: normalising a descriptor built from a package info gives it back |
| PluginLogic.NormalizeMissing | lib/plugins/UserscriptPlugin.ts:243-253 | missing fields (and a `bugs` object without a url) become "" |
| PluginLogic.PackageInfoAt | lib/plugins/UserscriptPlugin.ts:236-254 | reading `<root>/package.json` succeeds exactly when that read and parse succeed; the result is `Normalize` of the parsed descriptor under `root`, and an error is readJSON's error |
| PluginLogic.PackageInfoAsWritten | lib/plugins/UserscriptPlugin.ts:224-255 | readPackageInfo as written: the given root, "" for `root: false`, or the searched root, then the read of its package.json (`NoRootStillReads`, `SearchedRootIsPackageRoot`) |
| PluginLogic.PackageInfoSpec | lib/plugins/UserscriptPlugin.ts:224-255 | the corrected readPackageInfo: `root: false` gives empty package info without reading; otherwise as written |
| PluginLogic.NoRootStillReads | lib/plugins/UserscriptPlugin.ts:229-239 | as written, `root: false` still reads the relative "package.json" and fails when it is missing; the corrected version does not |
| PluginLogic.SearchedRootIsPackageRoot | lib/plugins/UserscriptPlugin.ts:229-234 | when the root is searched, the resulting root is the first ancestor of the context holding a regular package.json |
| PluginLogic.ResolveHeaderPath | lib/plugins/UserscriptPlugin.ts:257-269 | a string option is returned unchanged, an unset option gives a path ending in "headers.json", and "" comes exactly from an inline object (or the empty string) |
| PluginLogic.NonEmptyEntries | lib/plugins/UserscriptPlugin.ts:275-285 | the filtered `Object.fromEntries` holds only listed keys with non-empty string values |
| PluginLogic.NonEmptyEntriesAt | lib/plugins/UserscriptPlugin.ts:275-285 | with distinct keys, a pair is present exactly when its value is non-empty, and then with that value |
| PluginLogic.PackageDefaults | lib/plugins/UserscriptPlugin.ts:275-285 | the defaults are strings under the seven default tags only |
| PluginLogic.DefaultPairsDistinct | lib/plugins/UserscriptPlugin.ts:276-283 | the seven default tag names are distinct |
| PluginLogic.DefaultPresent | lib/plugins/UserscriptPlugin.ts:276-284 | each default tag is present exactly when its package field is non-empty, with that field as value |
| PluginLogic.DefaultsWellTyped | lib/plugins/UserscriptPlugin.ts:276-285 | every default value has the type its tag demands |
| PluginLogic.MergeValid | lib/plugins/UserscriptPlugin.ts:286-287 | well-typed defaults overridden by `o` are valid exactly when `o` is well typed and `name` and `version` each come from one side |
| PluginLogic.CreateHeader | lib/plugins/UserscriptPlugin.ts:271-295 | a returned header is valid, holds every override unchanged, and has no keys besides the overrides and the default tags; an invalid merge is an error |
| PluginLogic.CreateHeaderSucceeds | lib/plugins/UserscriptPlugin.ts:286-294 | createHeader succeeds exactly when every override is well typed and `name` and `version` are each overridden or non-empty in the package |
| PluginLogic.CreateHeaderDefault | lib/plugins/UserscriptPlugin.ts:276-286 | a default tag not overridden is in the result exactly when its value is non-empty, and then with that value |
| PluginLogic.Truthy | lib/plugins/UserscriptPlugin.ts:283 | JavaScript truthiness of a header value: a non-empty string, `true`, and any list or record (even empty); `EmptyIncludeSuppressesMatch` states the empty-list case |
| PluginLogic.HasTruthyInclude | lib/plugins/UserscriptPlugin.ts:283 | the `include` override is present and truthy; `CreateHeaderMatch` states that it decides the default `match` |
| PluginLogic.CreateHeaderMatch | lib/plugins/UserscriptPlugin.ts:283 | without a `match` override, `match` is `*://*/*` exactly when the `include` override is not truthy |
| PluginLogic.EmptyIncludeSuppressesMatch | lib/plugins/UserscriptPlugin.ts:283 | an empty `include` array is truthy, so no default `match` is added |
| PluginLogic.OverrideWins | lib/plugins/UserscriptPlugin.ts:286 | an override of `name` replaces the package's name |
| PluginLogic.CreateHeaderDemo | lib/plugins/UserscriptPlugin.ts:271-295 | package {name "Demo", version "1.0.0"} with no overrides gives exactly {name, version, match `*://*/*`} |
| PluginLogic.BuildHeaders | lib/plugins/UserscriptPlugin.ts:210-221 | the header built by loadHeaders is valid; from the inline option it succeeds exactly when createHeader does; from a file, a read or parse error is passed on |
| PluginLogic.BuildHeadersValue | lib/plugins/UserscriptPlugin.ts:209-220 | the built header is createHeader's result on the overrides loadHeaders reads (the inline option for an empty path, else the parsed header file), and it succeeds exactly when that createHeader does; a header error is createHeader's error |
| PluginLogic.InterpolateValue | lib/plugins/UserscriptPlugin.ts:301-317 | one value as intended: a string is interpolated, a list element by element, a record key by key and value by value, a boolean is kept (`InterpolateValueValid`, `InterpolateValueTemplateFree`) |
| PluginLogic.InterpolateValueAsWritten | lib/plugins/UserscriptPlugin.ts:301-317 | one value as written: a list takes the object branch and comes out as an index-keyed record (`AsWrittenBreaksArrays`, `AsWrittenAgreesWithoutArrays`) |
| PluginLogic.InterpolatePairsKeys | lib/plugins/UserscriptPlugin.ts:307-312 | the interpolated entries' keys are the interpolated keys |
| PluginLogic.InterpolateRecord | lib/plugins/UserscriptPlugin.ts:307-312 | an interpolated record has distinct keys, exactly the interpolated original keys |
| PluginLogic.InterpolateHeaders | lib/plugins/UserscriptPlugin.ts:297-318 | the corrected interpolation keeps the same tag names |
| PluginLogic.InterpolateHeadersAsWritten | lib/plugins/UserscriptPlugin.ts:297-318 | interpolation as written keeps the same tag names |
| PluginLogic.NoBracketTokenFree | lib/utils.ts:8 | a string without `[` holds no token |
| PluginLogic.RunAtFixed | lib/plugins/UserscriptPlugin.ts:304-305 | the five `run-at` literals are left unchanged by interpolation |
| PluginLogic.BasenameTemplate | types/index.ts:122-125 | the default file name template `[basename].user.js` gives the basename followed by ".user.js" |
| PluginLogic.SetEntryAllText | lib/plugins/UserscriptPlugin.ts:307-312 | assigning a string entry to a record of strings keeps it a record of strings |
| PluginLogic.FromEntriesAllText | lib/plugins/UserscriptPlugin.ts:307-312 | `Object.fromEntries` of string entries gives a record of strings |
| PluginLogic.InterpolateRecordAllText | lib/plugins/UserscriptPlugin.ts:307-312 | interpolating a record of strings gives a record of strings |
| PluginLogic.InterpolateValueValid | lib/plugins/UserscriptPlugin.ts:301-317 | interpolation keeps each value within what the schema accepts for its tag |
| PluginLogic.InterpolateHeadersValid | lib/plugins/UserscriptPlugin.ts:297-318 | interpolating a valid header gives a valid header, and every record in the result has distinct keys |
| PluginLogic.InterpolateRecordTemplateFree | lib/plugins/UserscriptPlugin.ts:307-312 | a record with distinct keys and no tokens is left unchanged |
| PluginLogic.InterpolateValueTemplateFree | lib/plugins/UserscriptPlugin.ts:302-316 | a value with no tokens is left unchanged |
| PluginLogic.InterpolateHeadersTemplateFree | lib/plugins/UserscriptPlugin.ts:297-318 | a header with no tokens (and records with distinct keys) is left unchanged |
| PluginLogic.AsWrittenAgreesWithoutArrays | lib/plugins/UserscriptPlugin.ts:306-315 | on headers without string lists the interpolation as written equals the corrected one |
| PluginLogic.AsWrittenBreaksArrays | lib/plugins/UserscriptPlugin.ts:306-314 | as written, a string list under a repeatable tag becomes an index-keyed record, which the schema rejects |
| PluginLogic.AsWrittenCounterexample | lib/plugins/UserscriptPlugin.ts:306-314 | a valid header with `match: ["a"]` becomes invalid through the interpolation as written and stays valid through the corrected one |
| PluginLogic.IndexOf | lib/plugins/UserscriptPlugin.ts:114 | `indexOf('?')` is the first occurrence, or -1 when there is none |
| PluginLogic.SplitQuery | lib/plugins/UserscriptPlugin.ts:114-116 | the file name and the query concatenate to the file; the name holds no `?`; the query is empty or starts with `?` |
| PluginLogic.IsScriptFile | lib/plugins/UserscriptPlugin.ts:114-120 | a file is processed exactly when its name before `?` has the extension ".js", which `ExtnameJs` states as: its last segment ends in ".js" after at least one character |
| PluginLogic.FileBasename | lib/plugins/UserscriptPlugin.ts:130-134 | ".user.js" is tested first, then ".js", each removed through `path.basename`; `FileBasenameStripsSuffix` states the result for every file name |
| PluginLogic.FileBasenameStripsSuffix | lib/plugins/UserscriptPlugin.ts:130-134 | for every file name: a last segment longer than ".user.js" and ending in it loses exactly that suffix; otherwise one longer than ".js" and ending in it loses ".js"; a segment that is the bare suffix is kept, and a file name that is the bare suffix gives ""; a name without ".js" is kept whole |
| PluginLogic.ResolveTag | lib/plugins/UserscriptPlugin.ts:149-158 | a string-valued URL tag is replaced by its resolution against the base; every other tag, and a non-string value, is kept |
| PluginLogic.ResolveUrls | lib/plugins/UserscriptPlugin.ts:149-169 | URL resolution changes only `downloadURL` and `updateURL`, and keeps the header valid and well formed |
| PluginLogic.MakeBuildInfo | lib/plugins/UserscriptPlugin.ts:114-142 | the build info records the file, split at its first `?` into file name and query (`SplitQuery`), the basename of lines 130-134 (`FileBasename`), the chunk's hash (`''` when absent) and name, and the pass's package info, hash and time |
| PluginLogic.FileEntry | lib/plugins/UserscriptPlugin.ts:128-177 | a file's entry carries its build info and a header with the template's tag names, valid and well formed when the template is valid; it uses the corrected interpolation (see "Left out") |
| PluginLogic.QueryString | lib/plugins/UserscriptPlugin.ts:135-137 | the text that `[query]` becomes: the query without its leading `?` (the URLSearchParams serialisation is under "Left out") |
| PluginLogic.InfoRecord | lib/plugins/UserscriptPlugin.ts:105-142 | the fifteen fields that interpolation looks up (lib/utils.ts:10), each in its `String()` form: the package fields, `buildTime` in decimal (`DecimalString`), `hash`, `basename`, `query`, `file`, `filename`, `chunkHash` and `chunkName`; `FileEntryToken` states how a header uses them |
| PluginLogic.FileEntryToken | lib/plugins/UserscriptPlugin.ts:144-147 | a tag whose template is one build-info token gets that field's string form |
| PluginLogic.AddFile | lib/plugins/UserscriptPlugin.ts:118-177 | one inner iteration: a file not kept leaves the map as it is; a kept one gets or creates its chunk's map and sets its own entry (`AddFileEntry`, `AddFileSkip`) |
| PluginLogic.AddFileEntry | lib/plugins/UserscriptPlugin.ts:122-177 | for a file whose name before `?` has extension ".js", the step sets exactly that file's entry in its chunk's map, created when absent |
| PluginLogic.AddFileSkip | lib/plugins/UserscriptPlugin.ts:118-120 | for any other file the step changes nothing |
| PluginLogic.CollectFiles | lib/plugins/UserscriptPlugin.ts:113-177 | the inner loop as a fold of `AddFile` over the chunk's files, first to last (`CollectFilesAt`, `CollectFilesKeys`, `CollectFilesConsistent`) |
| PluginLogic.CollectChunks | lib/plugins/UserscriptPlugin.ts:110-178 | the outer loop as a fold of `CollectFiles` over the entry chunks, first to last (`CollectChunksAt`, `CollectChunksConsistent`) |
| PluginLogic.CollectFilesAt | lib/plugins/UserscriptPlugin.ts:113-177 | after the inner loop, `(chunk, file)` holds the fresh entry exactly when the file is a kept file of that chunk; every other entry is as before |
| PluginLogic.CollectFilesKeys | lib/plugins/UserscriptPlugin.ts:122-126 | the chunk's map is created exactly when it has a kept file; no other chunk is added |
| PluginLogic.CollectChunksAt | lib/plugins/UserscriptPlugin.ts:110-178 | after the outer loop, each kept file of each entry chunk holds its fresh entry, and an entry no chunk touches is unchanged |
| PluginLogic.CollectFilesConsistent | lib/plugins/UserscriptPlugin.ts:113-177 | the inner loop records entries only for kept files, under their own file name |
| PluginLogic.CollectChunksConsistent | lib/plugins/UserscriptPlugin.ts:110-178 | the outer loop keeps every recorded entry under its own, kept file name |
| PluginLogic.ChunkIds | lib/plugins/UserscriptPlugin.ts:110-111 | the ids of the pass's entry chunks: each chunk's id, and nothing else |
| PluginLogic.FreshChunks | lib/plugins/UserscriptPlugin.ts:122-126 | the maps a pass starts from, as the `WeakMap` keyed by Chunk objects (line 43) gives them: none under an id of the pass's chunks, whose Chunk objects are new, and the others as they were |
| PluginLogic.ProcessPass | lib/plugins/UserscriptPlugin.ts:104-178 | the collection step of one processAssets pass, from `FreshChunks`: script files only, each with its `FileEntry` (`ProcessPassRecords`, `ProcessPassChunkMap`, `ProcessPassFrame`, `ProcessPassConsistent`) |
| PluginLogic.ProcessPassRecords | lib/plugins/UserscriptPlugin.ts:105-178 | each script file of an entry chunk gets its own entry, and all share the pass's hash, build time and tag names |
| PluginLogic.ProcessPassChunkMap | lib/plugins/UserscriptPlugin.ts:118-175 | after the pass, the map of each of its chunks holds an entry for a file exactly when the file is one of that chunk's script files; nothing an earlier pass recorded under the id survives |
| PluginLogic.ProcessPassFrame | lib/plugins/UserscriptPlugin.ts:110-178 | the entries under an id that no chunk of the pass has are unchanged |
| PluginLogic.ProcessPassConsistent | lib/plugins/UserscriptPlugin.ts:105-178 | a processAssets pass keeps every recorded entry under its own script file name |
| PluginLogic.Invalidated | lib/plugins/UserscriptPlugin.ts:190-194 | invalidation adds no key, changes no other key, makes a tracked non-empty file stale, and does nothing for null or "" |
| PluginLogic.InvalidatedIdempotent | lib/plugins/UserscriptPlugin.ts:190-194 | invalidating twice is the same as invalidating once |
| PluginLogic.InvalidatedFreshness | lib/plugins/UserscriptPlugin.ts:190-194 | after invalidation the file is not fresh, and every other file's freshness is unchanged |
| PluginLogic.SsriCachePath | lib/plugins/UserscriptPlugin.ts:76-84 | there is a cache path exactly when SSRI is on; it is `ssri.cache` when that is a string, else a path ending in ".ssri-cache.json" |
| PluginLogic.PairsToMap | lib/plugins/UserscriptPlugin.ts:86-91 | `new Map(pairs)` has exactly the pairs' keys |
| PluginLogic.PairsToMapLastWins | lib/plugins/UserscriptPlugin.ts:86-91 | `new Map(pairs)` keeps the last value given for each key |
| Plugin.ReadPackageInfoAsWritten | lib/plugins/UserscriptPlugin.ts:224-255 | readPackageInfo as written computes the as-written package info (root chosen, file read, fields normalised) |
| Plugin.ReadPackageInfo | lib/plugins/UserscriptPlugin.ts:224-255 | the corrected readPackageInfo computes the corrected package info and always terminates |
| Plugin.BuildFileInfo | lib/plugins/UserscriptPlugin.ts:128-169 | the loop body for one script file builds exactly its `FileEntry`, with the corrected interpolation (see "Left out") |
| Plugin.UserscriptPlugin.constructor | lib/plugins/UserscriptPlugin.ts:42-64 | the plugin starts with empty maps, no package info, header path or header, and satisfies its invariant |
| Plugin.UserscriptPlugin.Invalidate | lib/plugins/UserscriptPlugin.ts:190-194 | the `invalid` hook replaces `fileValidity` by its invalidation and changes nothing else, keeping the invariant |
| Plugin.UserscriptPlugin.LoadPackageInfo | lib/plugins/UserscriptPlugin.ts:196-202 | package info already loaded is kept; otherwise it is read with the corrected readPackageInfo (`PackageInfoSpec`), and a read failure leaves it unset and fails; nothing else changes |
| Plugin.UserscriptPlugin.LoadSsriCache | lib/plugins/UserscriptPlugin.ts:76-93 | with SSRI off or a fresh cache file nothing changes; otherwise the cache is re-read and its path marked fresh, or the read error is reported with nothing changed |
| Plugin.UserscriptPlugin.LoadHeaders | lib/plugins/UserscriptPlugin.ts:204-222 | the header path is resolved once; a non-empty fresh path keeps the header; otherwise the header is built again (a non-empty path marked fresh), or the build's error is returned with the header and freshness map unchanged (`HeaderLoaded` spells this out); no other field changes |
| Plugin.UserscriptPlugin.BeforeCompile | lib/plugins/UserscriptPlugin.ts:72-95 | the three steps in order keep the invariant and state the whole new state: a failed package read changes nothing; otherwise the package info is the loaded one; a failed SSRI read then keeps the cache, freshness map and header; otherwise the cache is kept or re-read, and the header step runs from the freshness map the SSRI step left; on success a header is available unless the SSRI file is also the header file |
| Plugin.UserscriptPlugin.ProcessAssets | lib/plugins/UserscriptPlugin.ts:104-180 | the pass starts the maps of its chunks empty (`FreshChunks`), and the nested loops then leave exactly `ProcessPass` over all entry chunks in `chunkFileInfo`, keeping the invariant (corrected interpolation: see "Left out") |
| Plugin.UserscriptPlugin.CollectChunkFiles | lib/plugins/UserscriptPlugin.ts:113-178 | the inner loop leaves exactly the fold over the chunk's files |
| Plugin.UserscriptPlugin.RecordFile | lib/plugins/UserscriptPlugin.ts:114-177 | one iteration skips a non-script file, else gets or creates the chunk's map and sets the file's entry |
| Plugin.UserscriptPlugin.AfterCompile | lib/plugins/UserscriptPlugin.ts:185-187 | the compilation's dependencies gain exactly the files with a freshness entry, all of them tracked files |

## Left out

- Webpack's hook wiring (`apply`, `tap`, `tapPromise`) and the `Compiler`, `Compilation` and `Chunk` objects. The hook bodies are methods. The compilation supplies its entry chunks, its hash and the current time as arguments.
- The `WeakMap` keyed by chunk object is a map keyed by chunk id. Webpack builds new Chunk objects for every compilation, so a pass finds no map for any of its chunks; the model drops the maps under the pass's chunk ids before it collects (`PluginLogic.FreshChunks`). Maps under other ids stay, where the source's entries for old chunk objects become unreachable. `Plugin.UserscriptPlugin.ProcessAssets` holds for any sequence of chunks; its lemmas `PluginLogic.ProcessPassRecords` and `PluginLogic.ProcessPassChunkMap` assume distinct ids, as distinct chunk objects have.
- async/Promise sequencing and callback-style `fs.stat`/`fs.readFile`. The oracles answer synchronously, and a rejected promise is a `Fail` or `Err` result.
- `JSON.parse` is an abstract parser, one per type read (package.json, header file, SSRI cache). Non-string package fields and `bugs: null` are not modelled. A header file value that is a number, `null`, or a list with non-string items has no `TagValue`, so the schema's rejection of, for example, `"version": 1` in the header file is not expressed.
- Ajv: the compiled header validator is the predicate `ValidHeader`, and the `errorsText` message is not modelled. `schema-utils` option validation in the constructor is also not modelled; the options arrive as already-typed values.
- `resolveUrl` / `new URL` (WHATWG URL parsing) is a total function passed in (`Resolver`). Its exceptions on malformed URLs are not modelled.
- PluginLogic.QueryString: `[query]` is replaced by the raw text after `?`. The source gives `String(new URLSearchParams(...))`, which reserialises the text: a bare key gains `=` (`?v` gives `v=`), empty pairs are dropped (`?a&&b=1` gives `a=&b=1`), `+` is read as a space, and characters are percent-encoded again. They agree on queries made of `key=value` pairs of letters, digits and `*-._`. The form-urlencoded parser and serialiser are not modelled.
- `path.join` only inserts one separator. It does not normalise `.`/`..` segments or repeated slashes.
- `dirname` follows Node's POSIX algorithm. `extname` and `basename` follow it only for paths without a trailing slash: Node removes trailing slashes first, so `extname("a.js/")` is ".js" in Node and "" in the model. Webpack's output file names do not end in a slash.
- JavaScript's `in` at lib/utils.ts:10 also finds inherited properties such as `constructor`. `info` is a finite map, so only its own keys are found.
- Object key order in headers: a header is a map from tag to value. Record values keep their entry order.
- HeaderSchema.SetEntryAbsent: a new key goes after the existing entries for every key. JavaScript objects put integer-like keys ("0", "1", ...) first, in ascending order, so `Object.fromEntries([["b", x], ["0", y]])` lists "0" first while the model keeps "b" first. Only the order differs: keys and values are the same.
- `mutualExclusiveHeaders` (lib/plugins/UserscriptPlugin.ts:28-32) is declared and never enforced, and is not modelled.
- The empty SSRI branch (lib/plugins/UserscriptPlugin.ts:171-172) does nothing and is not modelled.
- lib/schema.ts, the `createHeaderSchema` hook and scripts/ (schema generation) are not part of this model. The header schema is taken from types/schema/header.ts.
- `Date.now()` is the parameter `now` of `ProcessAssets`.
- Fs.FindPackageAsWritten: requires the halting condition `Halts`, because a method that may loop forever cannot be verified. The diverging case of the loop as written is modelled by `Fs.Run` and proved by `Fs.RunDiverges`.
- Plugin.ReadPackageInfoAsWritten: requires `Halts` when the root is searched, for the same reason.
- Plugin.UserscriptPlugin.LoadHeaders: requires loaded package info. In the source a missing `packageInfo` makes `createHeader` throw a TypeError, which is not modelled.
- Plugin.UserscriptPlugin.ProcessAssets: requires loaded package info and a header. In the source a missing header makes `Object.entries(undefined)` throw, which is not modelled. It also records entries built with the corrected interpolation, as `PluginLogic.FileEntry` below says.
- PluginLogic.FileEntry: interpolates the header with the corrected `InterpolateHeaders`, not with line 144's call to the code as written (`InterpolateHeadersAsWritten`). For a template with a string-list tag such as `match: ["*://a/*"]`, the source records the index-keyed record `{"0": "*://a/*"}`, which the schema rejects (`PluginLogic.AsWrittenBreaksArrays`). The model records the list. On templates without string lists the two agree (`PluginLogic.AsWrittenAgreesWithoutArrays`).
- Plugin.BuildFileInfo: computes the corrected `FileEntry`, for the same reason.
- Plugin.UserscriptPlugin.LoadPackageInfo: reads with the corrected `ReadPackageInfo` (`PackageInfoSpec`), not the code as written (`PackageInfoAsWritten`). With `root: false` the model reads nothing and succeeds, while the source reads "package.json" relative to the process and can fail (`PluginLogic.NoRootStillReads`). When the top directory's package.json is neither a regular file nor missing, the model fails with a PackageError, while the source never returns (`Fs.RunDiverges`). On every other input the two agree.
- Plugin.UserscriptPlugin.BeforeCompile: runs the corrected package read of `LoadPackageInfo` above. It guarantees a header only when the SSRI cache file and the header file differ. If they are the same file, marking it fresh after the SSRI read makes `loadHeaders` skip the header read.

## Findings

| source | as written | input that shows it | evidently intended | confidence | as-written member | corrected member |
|---|---|---|---|---|---|---|
| lib/plugins/UserscriptPlugin.ts:306-314 | the `typeof value === 'object'` test comes before `Array.isArray`, so an array takes the record branch and becomes an object keyed "0", "1", ... | header {name "n", version "1", match ["a"]}: valid before interpolation, rejected by the schema after | arrays are interpolated element-wise and stay arrays | not executed | PluginLogic.AsWrittenCounterexample | PluginLogic.InterpolateHeadersValid |
| lib/fs.ts:37-51 | when the top directory's package.json exists but is not a regular file, the `catch` is not entered and `dir = parent` repeats with `dir === parent` forever | search from "/" where "/package.json" is a directory | throw PackageError for the top directory | not executed | Fs.TopNonFileLoops | Fs.FindPackage |
| lib/plugins/UserscriptPlugin.ts:229-239 | `root: false` sets the root to "" and still reads "package.json" relative to the process directory, failing the build when none is there | `root: false` with no package.json in the working directory | per types/schema/userscript.ts:53-57, no search and package.json values ignored | not executed | PluginLogic.NoRootStillReads | PluginLogic.PackageInfoSpec |

=== FILE: fs.dfy ===
/**
 * Package discovery and JSON reading of lib/fs.ts.
 *
 * The file system is an oracle: `stat` says whether a path names a regular
 * file, names something else, or cannot be stat'ed (any error), and
 * `readFile` returns the file's text or the read error.
 */
module Fs {
  import opened Wrappers
  import opened Paths

  datatype Stat = Failed | RegularFile | OtherEntry

  datatype FileSystem = FileSystem(stat: string -> Stat, readFile: string -> Result<string, string>)

  /** The errors the two functions of lib/fs.ts raise or let through. */
  datatype FsError =
    | PackageError(dir: string)                        // class PackageError
    | InvalidJson(parserMessage: string, file: string) // class InvalidJSON
    | ReadFailed(reason: string)                       // a read error, passed through unwrapped
  {
    function Name(): string {
      match this
      case PackageError(_) => "PackageError"
      case InvalidJson(_, _) => "InvalidJSON"
      case ReadFailed(_) => "Error"
    }

    function Message(): string {
      match this
      case PackageError(dir) => PackageErrorPrefix + dir + "\"."
      case InvalidJson(msg, file) => msg + " (" + file + ")"
      case ReadFailed(reason) => reason
    }
  }

  const PackageErrorPrefix := "Package cannot be found recursing up from \""

  /** The message of a PackageError names its directory, and different directories give different messages. */
  lemma PackageErrorMessageNamesDir(a: string, b: string)
    ensures PackageError(a).Name() == "PackageError"
    ensures PackageError(a).Message()[|PackageErrorPrefix|..|PackageErrorPrefix| + |a|] == a
    ensures PackageError(a).Message() == PackageError(b).Message() ==> a == b
  {
    var ma, mb := PackageError(a).Message(), PackageError(b).Message();
    assert ma[|PackageErrorPrefix|..|PackageErrorPrefix| + |a|] == a;
    if ma == mb {
      assert |a| == |b|;
      assert mb[|PackageErrorPrefix|..|PackageErrorPrefix| + |b|] == b;
    }
  }

  /** The message of an InvalidJSON error is the parser's message followed by the file in parentheses. */
  lemma InvalidJsonMessageShape(msg: string, file: string)
    ensures InvalidJson(msg, file).Name() == "InvalidJSON"
    ensures InvalidJson(msg, file).Message()[..|msg|] == msg
    ensures EndsWith(InvalidJson(msg, file).Message(), " (" + file + ")")
  {
    var m := InvalidJson(msg, file).Message();
    assert m[|m| - |" (" + file + ")"|..] == " (" + file + ")";
  }

  function PackageJsonPath(dir: string): string {
    Join(dir, "package.json")
  }

  predicate HasPackage(stat: string -> Stat, dir: string) {
    stat(PackageJsonPath(dir)) == RegularFile
  }

  /** The top directory reached by walking up from `dir`. */
  function TopOf(dir: string): (top: string)
    ensures IsTop(top)
    decreases Rank(dir)
  {
    if IsTop(dir) then dir else DirnameProgress(dir); TopOf(Dirname(dir))
  }

  /** `dir`, its parent, its grandparent, ... up to and including the top. */
  function Ancestors(dir: string): (chain: seq<string>)
    ensures |chain| >= 1 && chain[0] == dir && chain[|chain| - 1] == TopOf(dir)
    ensures forall k :: 0 <= k < |chain| - 1 ==> chain[k + 1] == Dirname(chain[k]) && !IsTop(chain[k])
    decreases Rank(dir)
  {
    if IsTop(dir) then [dir] else DirnameProgress(dir); [dir] + Ancestors(Dirname(dir))
  }

  /** The first directory from `dir` upwards that holds a regular `package.json`. */
  function PackageRoot(stat: string -> Stat, dir: string): Option<string>
    decreases Rank(dir)
  {
    if HasPackage(stat, dir) then Some(dir)
    else if IsTop(dir) then None
    else DirnameProgress(dir); PackageRoot(stat, Dirname(dir))
  }

  /** What `findPackage(cwd)` should settle on: the package root, or a PackageError naming the top. */
  function Expected(stat: string -> Stat, cwd: string): Result<string, FsError> {
    match PackageRoot(stat, cwd)
    case Some(d) => Ok(d)
    case None => Err(PackageError(TopOf(cwd)))
  }

  /**
   * `PackageRoot` is the first ancestor (from `dir` itself upwards) whose
   * `package.json` is a regular file, and `None` means no ancestor has one.
   */
  lemma {:induction false} PackageRootIsFirst(stat: string -> Stat, dir: string)
    ensures PackageRoot(stat, dir).Some? ==>
      exists k :: 0 <= k < |Ancestors(dir)| && Ancestors(dir)[k] == PackageRoot(stat, dir).value &&
        HasPackage(stat, Ancestors(dir)[k]) &&
        forall j :: 0 <= j < k ==> !HasPackage(stat, Ancestors(dir)[j])
    ensures PackageRoot(stat, dir).None? ==>
      forall j :: 0 <= j < |Ancestors(dir)| ==> !HasPackage(stat, Ancestors(dir)[j])
    decreases Rank(dir)
  {
    var chain := Ancestors(dir);
    if HasPackage(stat, dir) {
      assert chain[0] == dir;
    } else if IsTop(dir) {
      assert chain == [dir];
    } else {
      DirnameProgress(dir);
      var up := Ancestors(Dirname(dir));
      assert chain == [dir] + up;
      PackageRootIsFirst(stat, Dirname(dir));
      assert PackageRoot(stat, dir) == PackageRoot(stat, Dirname(dir));
      if PackageRoot(stat, dir).Some? {
        var d := PackageRoot(stat, dir).value;
        var k :| 0 <= k < |up| && up[k] == d && HasPackage(stat, up[k]) &&
          forall j :: 0 <= j < k ==> !HasPackage(stat, up[j]);
        assert chain[k + 1] == d;
        forall j | 0 <= j < k + 1 ensures !HasPackage(stat, chain[j]) {
          if j > 0 { assert chain[j] == up[j - 1]; } else { assert chain[j] == dir; }
        }
      } else {
        forall j | 0 <= j < |chain| ensures !HasPackage(stat, chain[j]) {
          if j > 0 { assert chain[j] == up[j - 1]; } else { assert chain[j] == dir; }
        }
      }
    }
  }

  /** Moving up from a directory without a package keeps the outcome, the top and termination. */
  lemma StepUp(stat: string -> Stat, dir: string)
    requires !HasPackage(stat, dir) && !IsTop(dir)
    ensures Expected(stat, Dirname(dir)) == Expected(stat, dir)
    ensures TopOf(Dirname(dir)) == TopOf(dir)
    ensures Halts(stat, dir) ==> Halts(stat, Dirname(dir))
    ensures |Ancestors(dir)| == |Ancestors(Dirname(dir))| + 1
  {
    DirnameProgress(dir);
    assert Ancestors(dir) == [dir] + Ancestors(Dirname(dir));
  }

  // ---------------------------------------------------------------------
  // The loop of findPackage (fs.ts:36-51) as written
  // ---------------------------------------------------------------------

  /** What one pass through the loop body does. */
  datatype Step = Return(dir: string) | Throw(dir: string) | Continue(next: string)

  /**
   * One iteration: a regular file returns; a failed stat throws at a
   * directory that is its own parent and otherwise moves up; a stat that
   * succeeds on something else moves up, even from the top.
   */
  function LoopStep(stat: string -> Stat, dir: string): Step {
    var parent := Dirname(dir);
    match stat(PackageJsonPath(dir))
    case RegularFile => Return(dir)
    case Failed => if dir == parent then Throw(dir) else Continue(parent)
    case OtherEntry => Continue(parent)
  }

  /** The loop run for at most `fuel` iterations; `None` if it has not finished. */
  function Run(stat: string -> Stat, dir: string, fuel: nat): Option<Result<string, FsError>>
    decreases fuel
  {
    if fuel == 0 then None
    else
      match LoopStep(stat, dir)
      case Return(d) => Some(Ok(d))
      case Throw(d) => Some(Err(PackageError(d)))
      case Continue(next) => Run(stat, next, fuel - 1)
  }

  /**
   * The loop ends unless no ancestor has a regular package.json and the
   * top's package.json is something other than a regular file.
   */
  predicate Halts(stat: string -> Stat, cwd: string) {
    PackageRoot(stat, cwd).Some? || stat(PackageJsonPath(TopOf(cwd))) != OtherEntry
  }

  /** When the walk halts it does so within one iteration per ancestor, with the expected outcome. */
  lemma {:induction false} RunHalts(stat: string -> Stat, dir: string)
    requires Halts(stat, dir)
    ensures Run(stat, dir, |Ancestors(dir)|) == Some(Expected(stat, dir))
    decreases Rank(dir)
  {
    if !HasPackage(stat, dir) && !IsTop(dir) {
      DirnameProgress(dir);
      assert Ancestors(dir) == [dir] + Ancestors(Dirname(dir));
      RunHalts(stat, Dirname(dir));
    }
  }

  /**
   * Otherwise the loop never ends: once it reaches the top, `dir` equals
   * its parent and every iteration sets `dir` to itself.
   */
  lemma {:induction false} RunDiverges(stat: string -> Stat, dir: string, fuel: nat)
    requires !Halts(stat, dir)
    ensures Run(stat, dir, fuel) == None
    decreases fuel
  {
    if fuel > 0 {
      if IsTop(dir) {
        RunDiverges(stat, dir, fuel - 1);
      } else {
        DirnameProgress(dir);
        RunDiverges(stat, Dirname(dir), fuel - 1);
      }
    }
  }

  /**
   * `findPackage(cwd)` as written. It terminates only under `Halts`; then it
   * returns the first ancestor holding a regular package.json or throws a
   * PackageError naming the top directory (not `cwd`).
   */
  method FindPackageAsWritten(stat: string -> Stat, cwd: string) returns (r: Result<string, FsError>)
    requires Halts(stat, cwd)
    ensures Some(r) == Run(stat, cwd, |Ancestors(cwd)|)
    ensures r == Expected(stat, cwd)
  {
    var dir := cwd;
    ghost var n := |Ancestors(cwd)|;
    RunHalts(stat, cwd);
    while true
      invariant Halts(stat, dir) && Expected(stat, dir) == Expected(stat, cwd)
      invariant Run(stat, cwd, n) == Run(stat, dir, |Ancestors(dir)|)
      decreases Rank(dir)
    {
      var parent := Dirname(dir);
      var st := stat(PackageJsonPath(dir));
      if st == RegularFile {
        return Ok(dir);
      } else if st == Failed && dir == parent {
        return Err(PackageError(dir));
      }
      assert !IsTop(dir);
      assert LoopStep(stat, dir) == Continue(parent);
      StepUp(stat, dir);
      DirnameProgress(dir);
      dir := parent;
    }
  }

  /**
   * `findPackage(cwd)` with the guard the error message implies: at the top
   * directory, anything but a regular package.json throws. Always terminates.
   */
  method FindPackage(stat: string -> Stat, cwd: string) returns (r: Result<string, FsError>)
    ensures r == Expected(stat, cwd)
  {
    var dir := cwd;
    while true
      invariant Expected(stat, dir) == Expected(stat, cwd)
      decreases Rank(dir)
    {
      var parent := Dirname(dir);
      if stat(PackageJsonPath(dir)) == RegularFile {
        return Ok(dir);
      } else if dir == parent {
        return Err(PackageError(dir));
      }
      StepUp(stat, dir);
      DirnameProgress(dir);
      dir := parent;
    }
  }

  /**
   * A concrete input on which the loop as written never ends: the search
   * starts at "/" and "/package.json" is a directory. The corrected search
   * throws a PackageError for "/".
   */
  lemma TopNonFileLoops(fuel: nat)
    ensures var stat := (p: string) => if p == "/package.json" then OtherEntry else Failed;
      && !Halts(stat, "/")
      && Run(stat, "/", fuel) == None
      && Expected(stat, "/") == Err(PackageError("/"))
  {
    var stat := (p: string) => if p == "/package.json" then OtherEntry else Failed;
    assert Dirname("/") == "/";
    assert PackageJsonPath("/") == "/package.json";
    RunDiverges(stat, "/", fuel);
  }

  /**
   * Where the loop as written terminates without a package, the top's
   * package.json could not be stat'ed: a PackageError never comes from a
   * top whose package.json exists as something other than a regular file.
   */
  lemma PackageErrorMeansTopStatFailed(stat: string -> Stat, cwd: string)
    requires Halts(stat, cwd)
    ensures Expected(stat, cwd).Err? ==> stat(PackageJsonPath(TopOf(cwd))) == Failed
  {
    PackageRootIsFirst(stat, cwd);
    var chain := Ancestors(cwd);
    assert chain[|chain| - 1] == TopOf(cwd);
  }

  // ---------------------------------------------------------------------
  // readJSON (fs.ts:61-71)
  // ---------------------------------------------------------------------

  /**
   * `readJSON(file)`: the read happens outside the `try`, so its error
   * propagates unchanged; only a parse failure becomes InvalidJSON.
   */
  function ReadJson<T>(file: string, fs: FileSystem, parse: string -> Result<T, string>): (r: Result<T, FsError>)
    ensures r.Ok? <==> fs.readFile(file).Ok? && parse(fs.readFile(file).value).Ok?
    ensures r.Ok? ==> r.value == parse(fs.readFile(file).value).value
    ensures fs.readFile(file).Err? ==> r == Err(ReadFailed(fs.readFile(file).error))
    ensures r.Err? ==> (r.error.InvalidJson? <==> fs.readFile(file).Ok?)
    ensures r.Err? && r.error.InvalidJson? ==>
      r.error == InvalidJson(parse(fs.readFile(file).value).error, file)
  {
    match fs.readFile(file)
    case Err(e) => Err(ReadFailed(e))
    case Ok(text) =>
      match parse(text)
      case Ok(v) => Ok(v)
      case Err(msg) => Err(InvalidJson(msg, file))
  }
}

=== FILE: header.dfy ===
/**
 * The userscript header of types/schema/header.ts, and the validity
 * predicate that the JSON schema generated from it enforces.
 *
 * A header maps tag names to values. A value is a string, an array of
 * strings, a boolean or a record. A record is kept as the ordered list of
 * its entries, because building one with `Object.fromEntries` from entries
 * whose keys collide keeps the last value.
 */
module HeaderSchema {

  /** A record entry: a string, or some other JSON value kept opaque. */
  datatype Entry = Text(s: string) | Opaque(json: string)

  datatype TagValue =
    | Str(s: string)
    | StrList(items: seq<string>)
    | Flag(b: bool)
    | Rec(entries: seq<(string, Entry)>)

  type Header = map<string, TagValue>

  // ---------------------------------------------------------------------
  // Records as ordered entry lists
  // ---------------------------------------------------------------------

  function Keys(r: seq<(string, Entry)>): set<string> {
    set i | 0 <= i < |r| :: r[i].0
  }

  lemma KeysCons(p: (string, Entry), r: seq<(string, Entry)>)
    ensures Keys([p] + r) == {p.0} + Keys(r)
  {
    var l := [p] + r;
    forall k | k in Keys(l) ensures k in {p.0} + Keys(r) {
      var i :| 0 <= i < |l| && l[i].0 == k;
      if i > 0 { assert r[i - 1].0 == k; }
    }
    forall k | k in Keys(r) ensures k in Keys(l) {
      var i :| 0 <= i < |r| && r[i].0 == k;
      assert l[i + 1].0 == k;
    }
    assert l[0].0 == p.0;
  }

  predicate UniqueKeys(r: seq<(string, Entry)>) {
    forall i, j :: 0 <= i < j < |r| ==> r[i].0 != r[j].0
  }

  /** The value of `k` in `r`, taken from its first entry with that key. */
  function Lookup(r: seq<(string, Entry)>, k: string): (v: Entry)
    requires k in Keys(r)
  {
    if r[0].0 == k then r[0].1 else Lookup(r[1..], k)
  }

  /** `obj[k] = v`: replace the value in place if `k` is a key, else append. */
  function SetEntry(r: seq<(string, Entry)>, k: string, v: Entry): (r': seq<(string, Entry)>)
    ensures Keys(r') == Keys(r) + {k}
    ensures |r'| == if k in Keys(r) then |r| else |r| + 1
  {
    if r == [] then
      assert Keys([(k, v)]) == {k} by { assert [(k, v)][0].0 == k; }
      [(k, v)]
    else
      KeysCons(r[0], r[1..]);
      assert r == [r[0]] + r[1..];
      if r[0].0 == k then
        KeysCons((k, v), r[1..]);
        [(k, v)] + r[1..]
      else
        var tail := SetEntry(r[1..], k, v);
        KeysCons(r[0], tail);
        [r[0]] + tail
  }

  /** `Object.fromEntries(pairs)`: entries assigned from first to last. */
  function FromEntries(pairs: seq<(string, Entry)>): (r: seq<(string, Entry)>)
    decreases |pairs|
  {
    if pairs == [] then []
    else
      var last := pairs[|pairs| - 1];
      SetEntry(FromEntries(pairs[..|pairs| - 1]), last.0, last.1)
  }

  /** The value of the last entry of `pairs` whose key is `k`. */
  function LastValue(pairs: seq<(string, Entry)>, k: string): Entry
    requires k in Keys(pairs)
    decreases |pairs|
  {
    var last := pairs[|pairs| - 1];
    if last.0 == k then last.1
    else
      assert k in Keys(pairs[..|pairs| - 1]) by {
        var i :| 0 <= i < |pairs| && pairs[i].0 == k;
        assert pairs[..|pairs| - 1][i].0 == k;
      }
      LastValue(pairs[..|pairs| - 1], k)
  }

  lemma {:induction false} SetEntryUnique(r: seq<(string, Entry)>, k: string, v: Entry)
    requires UniqueKeys(r)
    ensures UniqueKeys(SetEntry(r, k, v))
  {
    if r != [] && r[0].0 != k {
      SetEntryUnique(r[1..], k, v);
      var tail := SetEntry(r[1..], k, v);
      assert r[0].0 !in Keys(r[1..]);
      forall j | 0 <= j < |tail| ensures tail[j].0 != r[0].0 {
        assert tail[j].0 in Keys(tail);
      }
    }
  }

  lemma {:induction false} SetEntryLookup(r: seq<(string, Entry)>, k: string, v: Entry, x: string)
    requires x in Keys(r) + {k}
    ensures Lookup(SetEntry(r, k, v), x) == if x == k then v else Lookup(r, x)
  {
    if r != [] && r[0].0 != k && r[0].0 != x {
      assert x in Keys(r[1..]) + {k} by {
        if x != k {
          var i :| 0 <= i < |r| && r[i].0 == x;
          assert r[1..][i - 1].0 == x;
        }
      }
      SetEntryLookup(r[1..], k, v, x);
    }
  }

  /** Appending to a list whose keys do not include `k` is what SetEntry does. */
  lemma {:induction false} SetEntryAbsent(r: seq<(string, Entry)>, k: string, v: Entry)
    requires k !in Keys(r)
    ensures SetEntry(r, k, v) == r + [(k, v)]
  {
    if r != [] {
      assert r[0].0 != k;
      assert k !in Keys(r[1..]);
      SetEntryAbsent(r[1..], k, v);
      assert [r[0]] + (r[1..] + [(k, v)]) == r + [(k, v)];
    }
  }

  lemma {:induction false} FromEntriesKeys(pairs: seq<(string, Entry)>)
    ensures UniqueKeys(FromEntries(pairs))
    ensures Keys(FromEntries(pairs)) == Keys(pairs)
    decreases |pairs|
  {
    if pairs != [] {
      var init := pairs[..|pairs| - 1];
      var last := pairs[|pairs| - 1];
      FromEntriesKeys(init);
      SetEntryUnique(FromEntries(init), last.0, last.1);
      assert pairs == init + [last];
      assert Keys(pairs) == Keys(init) + {last.0};
    }
  }

  /** Each key of `Object.fromEntries(pairs)` holds the value of its last pair. */
  lemma {:induction false} FromEntriesLastWins(pairs: seq<(string, Entry)>, k: string)
    requires k in Keys(pairs)
    ensures k in Keys(FromEntries(pairs))
    ensures Lookup(FromEntries(pairs), k) == LastValue(pairs, k)
    decreases |pairs|
  {
    var init := pairs[..|pairs| - 1];
    var last := pairs[|pairs| - 1];
    FromEntriesKeys(pairs);
    FromEntriesKeys(init);
    if last.0 != k {
      assert k in Keys(init) by {
        var i :| 0 <= i < |pairs| && pairs[i].0 == k;
        assert init[i].0 == k;
      }
      FromEntriesLastWins(init, k);
    }
    SetEntryLookup(FromEntries(init), last.0, last.1, k);
  }

  /** On entries with distinct keys, `Object.fromEntries` keeps them all, in order. */
  lemma {:induction false} FromEntriesIdentity(pairs: seq<(string, Entry)>)
    requires UniqueKeys(pairs)
    ensures FromEntries(pairs) == pairs
    decreases |pairs|
  {
    if pairs != [] {
      var init := pairs[..|pairs| - 1];
      var last := pairs[|pairs| - 1];
      FromEntriesIdentity(init);
      FromEntriesKeys(init);
      assert last.0 !in Keys(init);
      SetEntryAbsent(init, last.0, last.1);
      assert pairs == init + [last];
    }
  }

  // ---------------------------------------------------------------------
  // The header schema (types/schema/header.ts)
  // ---------------------------------------------------------------------

  /** Tags whose value is an `Interpolable` string. */
  const StringTags: set<string> := {
    "name", "version", "namespace", "author", "description", "homepage",
    "homepageURL", "website", "source", "icon", "iconURL", "defaulticon",
    "icon64", "icon64URL", "updateURL", "downloadURL", "installURL",
    "supportURL", "webRequest"
  }

  /** Tags whose value is `Repeatable<Interpolable>`: a string or an array of strings. */
  const RepeatableTags: set<string> := {"include", "match", "exclude", "require", "connect", "grant"}

  /** Tags whose value is `NamedValue<Interpolable>`: a record of strings. */
  const NamedTags: set<string> := {"resource", "antifeature"}

  const FlagTags: set<string> := {"noframes", "unwrap"}

  const RunAtValues: set<string> := {
    "document-start", "document-body", "document-end", "document-idle", "context-menu"
  }

  predicate AllText(entries: seq<(string, Entry)>) {
    forall i :: 0 <= i < |entries| ==> entries[i].1.Text?
  }

  /** What the schema demands of the value of one tag. */
  predicate TagValid(tag: string, v: TagValue) {
    if tag in StringTags then v.Str?
    else if tag in RepeatableTags then v.Str? || v.StrList?
    else if tag in NamedTags then v.Rec? && AllText(v.entries)
    else if tag in FlagTags then v.Flag?
    else if tag == "nocompat" then v.Flag? || v.Str?
    else if tag == "run-at" then v.Str? && v.s in RunAtValues
    else true // any other tag: any TagValue
  }

  /** A header the schema accepts: `name` and `version` present, every tag well typed. */
  predicate ValidHeader(h: Header) {
    && "name" in h
    && "version" in h
    && forall tag :: tag in h ==> TagValid(tag, h[tag])
  }

  /** Every record in the header has distinct keys, as a JavaScript object does. */
  predicate WellFormedHeader(h: Header) {
    forall tag :: tag in h && h[tag].Rec? ==> UniqueKeys(h[tag].entries)
  }

  /**
   * The tag classes do not overlap, so the order in which TagValid tests
   * them does not matter: each known tag has exactly one declared type.
   */
  lemma TagClassesDisjoint()
    ensures forall t :: t in RepeatableTags ==> t !in StringTags
    ensures forall t :: t in NamedTags ==> t !in StringTags && t !in RepeatableTags
    ensures forall t :: t in FlagTags ==> t !in StringTags && t !in RepeatableTags && t !in NamedTags
    ensures "nocompat" !in StringTags + RepeatableTags + NamedTags + FlagTags
    ensures "run-at" !in StringTags + RepeatableTags + NamedTags + FlagTags
  {
    forall t | t in RepeatableTags ensures t !in StringTags { NotStringTag(t); }
    forall t | t in NamedTags + FlagTags ensures t !in StringTags { NotStringTag(t); }
    NotStringTag("nocompat");
    NotStringTag("run-at");
  }

  /** The names of the repeatable, record and flag tags, `nocompat` and `run-at` are not string tags. */
  lemma NotStringTag(t: string)
    requires t in RepeatableTags + NamedTags + FlagTags + {"nocompat", "run-at"}
    ensures t !in StringTags
  {
  }

  /** `name` and `version` are required strings; a header lacking either is rejected. */
  lemma ValidHeaderNameVersion(h: Header)
    ensures ValidHeader(h) ==> h["name"].Str? && h["version"].Str?
    ensures "name" !in h || "version" !in h ==> !ValidHeader(h)
  {
  }

  /** `run-at` accepts exactly its five literals, and only as a string. */
  lemma RunAtValid(v: TagValue)
    ensures TagValid("run-at", v) <==> v.Str? && v.s in RunAtValues
  {
    TagClassesDisjoint();
  }

  /** `nocompat` is a boolean or a string; `noframes` and `unwrap` are booleans. */
  lemma FlagTagsValid(v: TagValue)
    ensures TagValid("nocompat", v) <==> v.Flag? || v.Str?
    ensures TagValid("noframes", v) <==> v.Flag?
    ensures TagValid("unwrap", v) <==> v.Flag?
  {
    TagClassesDisjoint();
  }

  /** A tag the type does not name may hold any value. */
  lemma OtherTagValid(tag: string, v: TagValue)
    requires tag !in StringTags + RepeatableTags + NamedTags + FlagTags
    requires tag != "nocompat" && tag != "run-at"
    ensures TagValid(tag, v)
  {
  }

  /** Concrete headers the schema accepts and rejects. */
  lemma ValidHeaderExamples()
    ensures ValidHeader(map["name" := Str("a"), "version" := Str("1"), "match" := StrList(["*://*/*"])])
    ensures !ValidHeader(map["name" := Str("a"), "version" := StrList(["1"])])
    ensures !ValidHeader(map["name" := Str("a"), "version" := Str("1"), "run-at" := Str("document-load")])
    ensures !ValidHeader(map["name" := Str("a"), "version" := Str("1"), "resource" := Rec([("x", Opaque("1"))])])
    ensures ValidHeader(map["name" := Str("a"), "version" := Str("1"), "x-custom" := Flag(true)])
  {
    var h0 := map["name" := Str("a"), "version" := Str("1"), "match" := StrList(["*://*/*"])];
    assert "match" !in StringTags && "match" in RepeatableTags;
    assert TagValid("name", h0["name"]) && TagValid("version", h0["version"]) && TagValid("match", h0["match"]);
    var h4 := map["name" := Str("a"), "version" := Str("1"), "x-custom" := Flag(true)];
    assert TagValid("x-custom", h4["x-custom"]);
    var h1 := map["name" := Str("a"), "version" := StrList(["1"])];
    assert !TagValid("version", h1["version"]);
    var h2 := map["name" := Str("a"), "version" := Str("1"), "run-at" := Str("document-load")];
    assert !TagValid("run-at", h2["run-at"]) by { RunAtValid(h2["run-at"]); }
    var h3 := map["name" := Str("a"), "version" := Str("1"), "resource" := Rec([("x", Opaque("1"))])];
    assert !AllText(h3["resource"].entries) by { assert !h3["resource"].entries[0].1.Text?; }
    assert !TagValid("resource", h3["resource"]);
  }
}

=== FILE: paths.dfy ===
/**
 * The parts of Node's POSIX `path` module that the plugin relies on.
 * `Dirname`, `Extname` and `Basename` follow Node's algorithms for paths
 * without trailing separators; `Join` only inserts a separator and does not
 * normalise `.`/`..` segments or repeated slashes.
 */
module Paths {

  /**
   * Scan of `path.dirname` from index `i` down to 1: the index of the slash
   * that ends the directory part, or -1 if there is none. `matched` is true
   * while only slashes have been seen from the end.
   */
  function DirEnd(p: string, i: int, matched: bool): (end: int)
    requires i < |p|
    ensures end == -1 || 1 <= end <= i
    decreases i
  {
    if i < 1 then -1
    else if p[i] == '/' then (if !matched then i else DirEnd(p, i - 1, matched))
    else DirEnd(p, i - 1, false)
  }

  /** `path.dirname(p)`. */
  function Dirname(p: string): string {
    if |p| == 0 then "."
    else
      var hasRoot := p[0] == '/';
      var end := DirEnd(p, |p| - 1, true);
      if end == -1 then (if hasRoot then "/" else ".")
      else if hasRoot && end == 1 then "//"
      else p[..end]
  }

  /** A directory that is its own parent: the top of an upward walk. */
  predicate IsTop(dir: string) {
    Dirname(dir) == dir
  }

  /** A measure that every step from a directory to a different parent decreases. */
  function Rank(p: string): nat {
    if p == "/" || p == "." then 0 else |p| + 1
  }

  /** Walking up from a directory that is not a top strictly decreases `Rank`. */
  lemma DirnameProgress(p: string)
    ensures IsTop(p) || Rank(Dirname(p)) < Rank(p)
  {
    if |p| > 0 {
      var end := DirEnd(p, |p| - 1, true);
      if end != -1 && p[0] == '/' && end == 1 {
        DirEndNonSlash(p, |p| - 1, true);
      }
    }
  }

  /** When the scan stops at slash index 1, a non-slash character follows it. */
  lemma DirEndNonSlash(p: string, i: int, matched: bool)
    requires i < |p|
    requires DirEnd(p, i, matched) == 1
    requires !matched ==> i + 1 < |p|
    ensures |p| >= 3
    decreases i
  {
    if i >= 1 {
      if p[i] == '/' {
        if matched { DirEndNonSlash(p, i - 1, matched); }
      } else {
        DirEndNonSlash(p, i - 1, false);
      }
    }
  }

  /** The only directories that are their own parent are "/" and ".". */
  lemma TopIsRootOrDot(p: string)
    ensures IsTop(p) <==> p == "/" || p == "."
  {
    if |p| > 0 {
      var end := DirEnd(p, |p| - 1, true);
      if end != -1 && p[0] == '/' && end == 1 {
        DirEndNonSlash(p, |p| - 1, true);
      }
    }
  }

  /** `path.join(dir, name)` for a single file name. */
  function Join(dir: string, name: string): string {
    if dir == "" || dir == "." then name
    else if dir[|dir| - 1] == '/' then dir + name
    else dir + "/" + name
  }

  /**
   * The dirname scan below index `i`, once a non-slash has been seen: it
   * stops at the last slash at an index of at least 1, or gives -1.
   */
  lemma DirEndScan(p: string, i: int, k: nat)
    requires k <= i < |p|
    requires forall j :: k < j <= i ==> p[j] != '/'
    requires k >= 1 ==> p[k] == '/'
    ensures DirEnd(p, i, false) == (if k >= 1 then k else -1)
    decreases i
  {
    if i >= 1 && i != k {
      DirEndScan(p, i - 1, k);
    }
  }

  /**
   * Joining a file name to a directory and taking the dirname gives the
   * directory back, for a directory without a trailing slash, or "/".
   */
  lemma DirnameJoin(dir: string, name: string)
    requires name != [] && forall i :: 0 <= i < |name| ==> name[i] != '/'
    requires dir == "/" || (dir != "" && dir[|dir| - 1] != '/')
    ensures Dirname(Join(dir, name)) == dir
  {
    var p := Join(dir, name);
    if dir == "." {
      assert p == name;
      if |p| >= 2 { DirEndScan(p, |p| - 2, 0); }
    } else if dir == "/" {
      assert p == "/" + name;
      DirEndScan(p, |p| - 2, 0);
    } else {
      assert p == dir + "/" + name;
      assert p[|dir|] == '/';
      assert forall j :: |dir| < j < |p| ==> p[j] == name[j - |dir| - 1];
      DirEndScan(p, |p| - 2, |dir|);
      assert p[..|dir|] == dir;
    }
  }

  /** Index of the last occurrence of `c` in `s`, or -1. */
  function LastIndexOf(s: string, c: char): (k: int)
    ensures -1 <= k < |s|
    ensures k >= 0 ==> s[k] == c
    ensures forall j :: k < j < |s| ==> s[j] != c
  {
    if s == [] then -1
    else if s[|s| - 1] == c then |s| - 1
    else LastIndexOf(s[..|s| - 1], c)
  }

  /** The last segment of a path: everything after its last slash. */
  function LastSegment(p: string): (seg: string)
    ensures |seg| <= |p| && seg == p[|p| - |seg|..]
    ensures forall i :: 0 <= i < |seg| ==> seg[i] != '/'
  {
    p[LastIndexOf(p, '/') + 1..]
  }

  /**
   * The last segment is the longest suffix without a slash: it is the whole
   * path, or a slash comes right before it.
   */
  lemma LastSegmentMaximal(p: string)
    ensures var seg := LastSegment(p); |seg| == |p| || p[|p| - |seg| - 1] == '/'
  {
  }

  predicate EndsWith(s: string, suffix: string) {
    |suffix| <= |s| && s[|s| - |suffix|..] == suffix
  }

  /**
   * `path.extname(p)`: from the last dot of the last segment to its end,
   * unless the segment has no dot, starts with its only relevant dot, or is "..".
   */
  function Extname(p: string): string {
    var seg := LastSegment(p);
    var dot := LastIndexOf(seg, '.');
    if dot <= 0 || seg == ".." then "" else seg[dot..]
  }

  /**
   * `path.basename(p, suffix)`: the last segment, with `suffix` removed when
   * the segment ends with it and is longer; a path equal to `suffix` gives "".
   */
  function Basename(p: string, suffix: string): string {
    if p == suffix then ""
    else
      var seg := LastSegment(p);
      if |seg| > |suffix| && EndsWith(seg, suffix) then seg[..|seg| - |suffix|] else seg
  }

  /** A file has extension ".js" exactly when its last segment ends in ".js" after at least one character. */
  lemma ExtnameJs(p: string)
    ensures Extname(p) == ".js" <==> |LastSegment(p)| > 3 && EndsWith(LastSegment(p), ".js")
  {
    var seg := LastSegment(p);
    var dot := LastIndexOf(seg, '.');
    if |seg| > 3 && EndsWith(seg, ".js") {
      assert seg[|seg| - 3] == '.' && seg[|seg| - 2] == 'j' && seg[|seg| - 1] == 's';
      assert dot == |seg| - 3;
      assert seg[dot..] == ".js";
    }
    if Extname(p) == ".js" {
      assert dot > 0 && seg[dot..] == ".js";
    }
  }
}

=== FILE: plugin.dfy ===
/**
 * The stateful part of lib/plugins/UserscriptPlugin.ts: readPackageInfo,
 * which searches for the package root, and the plugin object whose hook
 * bodies update its freshness map, caches and per-chunk file information.
 */
module Plugin {
  import opened Wrappers
  import opened Paths
  import opened Fs
  import opened HeaderSchema
  import opened Types
  import opened PluginLogic

  /** `readPackageInfo` as written (UserscriptPlugin.ts:224-255), with the search as written. */
  method ReadPackageInfoAsWritten(opt: RootOption, context: string, fs: FileSystem,
                                  parse: string -> Result<PackageJson, string>) returns (r: Result<PackageInfo, FsError>)
    requires opt.SearchRoot? ==> Halts(fs.stat, context)
    ensures r == PackageInfoAsWritten(opt, context, fs, parse)
  {
    var root: string;
    match opt {
      case RootAt(p) =>
        root := p;
      case NoRoot =>
        root := "";
      case SearchRoot =>
        var found := FindPackageAsWritten(fs.stat, context);
        if found.Err? {
          return Err(found.error);
        }
        root := found.value;
    }
    r := PackageInfoAt(root, fs, parse);
  }

  /** `readPackageInfo` with the corrected search, and no read at all for `root: false`. */
  method ReadPackageInfo(opt: RootOption, context: string, fs: FileSystem,
                         parse: string -> Result<PackageJson, string>) returns (r: Result<PackageInfo, FsError>)
    ensures r == PackageInfoSpec(opt, context, fs, parse)
  {
    var root: string;
    match opt {
      case RootAt(p) =>
        root := p;
      case NoRoot =>
        return Ok(EmptyInfo(""));
      case SearchRoot =>
        var found := FindPackage(fs.stat, context);
        if found.Err? {
          return Err(found.error);
        }
        root := found.value;
    }
    r := PackageInfoAt(root, fs, parse);
  }

  /**
   * The body of processAssets for one script file: its build info, its
   * interpolated headers, and downloadURL and updateURL resolved against
   * the public URL.
   */
  method BuildFileInfo(pass: BuildPass, chunk: Chunk, file: string, filename: string, query: string)
    returns (e: FileInfo)
    requires (filename, query) == SplitQuery(file)
    ensures e == FileEntry(pass, chunk, file)
  {
    var buildInfo := BuildInfo(pass.pkg, pass.hash, pass.buildTime, chunk.hash.GetOr(""), chunk.name,
                               file, filename, FileBasename(filename), query);
    var headers := InterpolateHeaders(pass.raw, InfoRecord(buildInfo));
    if "downloadURL" in headers && headers["downloadURL"].Str? {
      headers := headers["downloadURL" := Str(pass.resolve(headers["downloadURL"].s, DownloadBase(pass.publicUrl)))];
    }
    if "updateURL" in headers && headers["updateURL"].Str? {
      headers := headers["updateURL" := Str(pass.resolve(headers["updateURL"].s, UpdateBase(pass.publicUrl)))];
    }
    e := FileInfo(buildInfo, headers);
  }

  /**
   * The plugin object. `context` is the compiler's context directory, or the
   * process's working directory when it has none; `fs` and the parsers are
   * the compiler's input file system and JSON.parse at the three types read.
   */
  class UserscriptPlugin {
    const options: UserscriptOptions
    const context: string
    const fs: FileSystem
    const parsePackage: string -> Result<PackageJson, string>
    const parseHeaders: string -> Result<Header, string>
    const parseSsri: string -> Result<seq<(string, string)>, string>

    var fileValidity: map<string, bool>
    var chunkFileInfo: ChunkFiles
    var ssriCache: map<string, string>
    var packageInfo: Option<PackageInfo>
    var headerPath: Option<string>
    var rawHeaders: Option<Header>

    /** The files whose freshness is tracked: the SSRI cache file and, once resolved, the header file. */
    function TrackedFiles(): set<string>
      reads this
    {
      var ssri := SsriCachePath(options.ssri, context);
      (if ssri.Some? then {ssri.value} else {}) +
      (if headerPath.Some? && headerPath.value != "" then {headerPath.value} else {})
    }

    predicate Fresh(file: string)
      reads this
    {
      IsFresh(fileValidity, file)
    }

    ghost predicate Valid()
      reads this
    {
      && fileValidity.Keys <= TrackedFiles()
      && (headerPath.Some? ==> headerPath.value == ResolveHeaderPath(options.headers, context))
      && (rawHeaders.Some? ==> ValidHeader(rawHeaders.value))
      // a fresh header file has been read, unless the SSRI cache shares its path
      && ((headerPath.Some? && headerPath.value != "" && Fresh(headerPath.value) &&
           SsriCachePath(options.ssri, context) != headerPath) ==> rawHeaders.Some?)
      && EntriesConsistent(chunkFileInfo, IsScriptFile)
    }

    constructor(options: UserscriptOptions, context: string, fs: FileSystem,
                parsePackage: string -> Result<PackageJson, string>,
                parseHeaders: string -> Result<Header, string>,
                parseSsri: string -> Result<seq<(string, string)>, string>)
      ensures this.options == options && this.context == context && this.fs == fs
      ensures this.parsePackage == parsePackage && this.parseHeaders == parseHeaders && this.parseSsri == parseSsri
      ensures fileValidity == map[] && chunkFileInfo == map[] && ssriCache == map[]
      ensures packageInfo == None && headerPath == None && rawHeaders == None
      ensures Valid()
    {
      this.options := options;
      this.context := context;
      this.fs := fs;
      this.parsePackage := parsePackage;
      this.parseHeaders := parseHeaders;
      this.parseSsri := parseSsri;
      fileValidity := map[];
      chunkFileInfo := map[];
      ssriCache := map[];
      packageInfo := None;
      headerPath := None;
      rawHeaders := None;
    }

    /** The `invalid` hook: a tracked, non-empty file becomes stale. */
    method Invalidate(file: Option<string>)
      requires Valid()
      modifies this
      ensures Valid()
      ensures fileValidity == Invalidated(old(fileValidity), file)
      ensures chunkFileInfo == old(chunkFileInfo) && ssriCache == old(ssriCache)
      ensures packageInfo == old(packageInfo) && headerPath == old(headerPath) && rawHeaders == old(rawHeaders)
    {
      if file.Some? && file.value != "" && file.value in fileValidity {
        fileValidity := fileValidity[file.value := false];
      }
    }

    /** The first beforeCompile hook: the package info is read once and kept. */
    method LoadPackageInfo() returns (o: Outcome<PluginError>)
      requires Valid()
      modifies this
      ensures Valid()
      ensures old(packageInfo).Some? ==> packageInfo == old(packageInfo) && o.Pass?
      ensures old(packageInfo).None? && PackageInfoSpec(options.root, context, fs, parsePackage).Ok? ==>
        packageInfo == Some(PackageInfoSpec(options.root, context, fs, parsePackage).value) && o.Pass?
      ensures old(packageInfo).None? && PackageInfoSpec(options.root, context, fs, parsePackage).Err? ==>
        packageInfo == None && o == Fail(FsFailure(PackageInfoSpec(options.root, context, fs, parsePackage).error))
      ensures fileValidity == old(fileValidity) && chunkFileInfo == old(chunkFileInfo) && ssriCache == old(ssriCache)
      ensures headerPath == old(headerPath) && rawHeaders == old(rawHeaders)
    {
      if packageInfo.Some? {
        return Pass;
      }
      var r := ReadPackageInfo(options.root, context, fs, parsePackage);
      if r.Err? {
        return Fail(FsFailure(r.error));
      }
      packageInfo := Some(r.value);
      o := Pass;
    }

    /** The second beforeCompile hook: the SSRI cache is read again unless its file is fresh. */
    method LoadSsriCache() returns (o: Outcome<PluginError>)
      requires Valid()
      modifies this`fileValidity, this`ssriCache
      ensures Valid()
      ensures var p := SsriCachePath(options.ssri, context);
        p.None? || IsFresh(old(fileValidity), p.value) ==>
          fileValidity == old(fileValidity) && ssriCache == old(ssriCache) && o.Pass?
      ensures var p := SsriCachePath(options.ssri, context);
        p.Some? && !IsFresh(old(fileValidity), p.value) && ReadJson(p.value, fs, parseSsri).Ok? ==>
          && ssriCache == PairsToMap(ReadJson(p.value, fs, parseSsri).value)
          && fileValidity == old(fileValidity)[p.value := true]
          && o.Pass?
      ensures var p := SsriCachePath(options.ssri, context);
        p.Some? && !IsFresh(old(fileValidity), p.value) && ReadJson(p.value, fs, parseSsri).Err? ==>
          && fileValidity == old(fileValidity) && ssriCache == old(ssriCache)
          && o == Fail(FsFailure(ReadJson(p.value, fs, parseSsri).error))
    {
      var cachePath := SsriCachePath(options.ssri, context);
      if cachePath.None? || Fresh(cachePath.value) {
        return Pass;
      }
      var read := ReadJson(cachePath.value, fs, parseSsri);
      if read.Err? {
        return Fail(FsFailure(read.error));
      }
      ssriCache := PairsToMap(read.value);
      fileValidity := fileValidity[cachePath.value := true];
      o := Pass;
    }

    /**
     * What the header hook leaves, from the freshness map `v` and the header
     * `raw` it started from: the path is resolved; a non-empty fresh path keeps
     * the header; otherwise the header is built again and a non-empty path is
     * marked fresh, or the build's error is returned and nothing else changes.
     */
    predicate HeaderLoaded(v: map<string, bool>, raw: Option<Header>, o: Outcome<PluginError>)
      requires packageInfo.Some?
      reads this
    {
      var h := ResolveHeaderPath(options.headers, context);
      var built := BuildHeaders(packageInfo.value, h, options.headers, fs, parseHeaders);
      && headerPath == Some(h)
      && (h != "" && IsFresh(v, h) ==> fileValidity == v && rawHeaders == raw && o.Pass?)
      && ((h == "" || !IsFresh(v, h)) && built.Ok? ==>
            rawHeaders == Some(built.value) && fileValidity == (if h != "" then v[h := true] else v) && o.Pass?)
      && ((h == "" || !IsFresh(v, h)) && built.Err? ==>
            fileValidity == v && rawHeaders == raw && o == Fail(built.error))
    }

    /**
     * The header hook: the path is resolved once; a non-empty path that is
     * not fresh is read again and marked fresh; the inline option is
     * rebuilt every time; a fresh file keeps the current header.
     */
    method LoadHeaders() returns (o: Outcome<PluginError>)
      requires Valid() && packageInfo.Some?
      modifies this
      ensures Valid()
      ensures chunkFileInfo == old(chunkFileInfo) && ssriCache == old(ssriCache) && packageInfo == old(packageInfo)
      ensures HeaderLoaded(old(fileValidity), old(rawHeaders), o)
    {
      if headerPath.None? {
        headerPath := Some(ResolveHeaderPath(options.headers, context));
      }
      var path := headerPath.value;
      if path != "" && Fresh(path) {
        o := Pass;
      } else {
        var built := BuildHeaders(packageInfo.value, path, options.headers, fs, parseHeaders);
        if built.Err? {
          o := Fail(built.error);
        } else {
          rawHeaders := Some(built.value);
          if path != "" {
            fileValidity := fileValidity[path := true];
          }
          o := Pass;
        }
      }
    }

    /** The package info after the first hook, when that hook passes. */
    function PackageAfterLoad(pkg: Option<PackageInfo>): Option<PackageInfo> {
      if pkg.Some? then pkg
      else
        var r := PackageInfoSpec(options.root, context, fs, parsePackage);
        if r.Ok? then Some(r.value) else None
    }

    /** Whether the second hook reads the SSRI cache file, given the freshness map it starts from. */
    predicate SsriReads(validity: map<string, bool>) {
      var p := SsriCachePath(options.ssri, context);
      p.Some? && !IsFresh(validity, p.value)
    }

    /** The freshness map after the second hook, when that hook passes. */
    function ValidityAfterSsri(validity: map<string, bool>): map<string, bool> {
      if SsriReads(validity) then validity[SsriCachePath(options.ssri, context).value := true] else validity
    }

    /**
     * The beforeCompile hooks in the order they run: the package info, the
     * SSRI cache, then the header; a failing hook stops the rest and leaves
     * what the later hooks would change as it was.
     */
    method BeforeCompile() returns (o: Outcome<PluginError>)
      requires Valid()
      modifies this
      ensures Valid()
      ensures o.Pass? ==> packageInfo.Some? && headerPath == Some(ResolveHeaderPath(options.headers, context))
      ensures o.Pass? && SsriCachePath(options.ssri, context) != headerPath ==> rawHeaders.Some?
      ensures chunkFileInfo == old(chunkFileInfo)
      // step 1 fails: nothing changes
      ensures var r := PackageInfoSpec(options.root, context, fs, parsePackage);
        old(packageInfo).None? && r.Err? ==>
          && o == Fail(FsFailure(r.error))
          && packageInfo == None && fileValidity == old(fileValidity) && ssriCache == old(ssriCache)
          && headerPath == old(headerPath) && rawHeaders == old(rawHeaders)
      // step 1 passes: the package info is the loaded one from then on
      ensures PackageAfterLoad(old(packageInfo)).Some? ==> packageInfo == PackageAfterLoad(old(packageInfo))
      // step 2 fails: the SSRI cache, the freshness map and the header are kept
      ensures var p := SsriCachePath(options.ssri, context);
        PackageAfterLoad(old(packageInfo)).Some? && SsriReads(old(fileValidity)) &&
        ReadJson(p.value, fs, parseSsri).Err? ==>
          && o == Fail(FsFailure(ReadJson(p.value, fs, parseSsri).error))
          && fileValidity == old(fileValidity) && ssriCache == old(ssriCache)
          && headerPath == old(headerPath) && rawHeaders == old(rawHeaders)
      // step 2 passes: the SSRI cache is kept when fresh, else reread
      ensures PackageAfterLoad(old(packageInfo)).Some? && !SsriReads(old(fileValidity)) ==> ssriCache == old(ssriCache)
      ensures var p := SsriCachePath(options.ssri, context);
        (PackageAfterLoad(old(packageInfo)).Some? && SsriReads(old(fileValidity)) &&
         ReadJson(p.value, fs, parseSsri).Ok?) ==> ssriCache == PairsToMap(ReadJson(p.value, fs, parseSsri).value)
      // step 3, from the freshness map step 2 left
      ensures var p := SsriCachePath(options.ssri, context);
        PackageAfterLoad(old(packageInfo)).Some? && (SsriReads(old(fileValidity)) ==> ReadJson(p.value, fs, parseSsri).Ok?) ==>
          packageInfo.Some? && HeaderLoaded(ValidityAfterSsri(old(fileValidity)), old(rawHeaders), o)
    {
      o := LoadPackageInfo();
      if o.Fail? {
        return;
      }
      assert packageInfo == PackageAfterLoad(old(packageInfo)) && fileValidity == old(fileValidity);
      o := LoadSsriCache();
      if o.Fail? {
        return;
      }
      assert fileValidity == ValidityAfterSsri(old(fileValidity));
      o := LoadHeaders();
    }

    /**
     * The processAssets hook: for every entry chunk and each of its script
     * files, record the file's build info and interpolated headers in the
     * chunk's map, which starts empty because the compilation's chunks are new.
     */
    method ProcessAssets(hash: Option<string>, now: nat, chunks: seq<Chunk>, resolve: Resolver)
      requires Valid() && packageInfo.Some? && rawHeaders.Some?
      modifies this`chunkFileInfo
      ensures Valid()
      ensures chunkFileInfo == ProcessPass(old(chunkFileInfo), chunks,
        BuildPass(packageInfo.value, hash.GetOr(""), now, rawHeaders.value, options.publicUrl, resolve))
    {
      var pass := BuildPass(packageInfo.value, hash.GetOr(""), now, rawHeaders.value, options.publicUrl, resolve);
      ghost var before := chunkFileInfo;
      // the compilation's chunk objects are new: none of them has a map yet
      chunkFileInfo := FreshChunks(chunkFileInfo, chunks);
      ghost var m0 := chunkFileInfo;
      var i := 0;
      while i < |chunks|
        invariant 0 <= i <= |chunks|
        invariant chunkFileInfo == CollectChunks(m0, chunks[..i], IsScriptFile, PassEntry(pass))
      {
        CollectChunkFiles(pass, chunks[i]);
        assert chunks[..i + 1][..i] == chunks[..i] && chunks[..i + 1][i] == chunks[i];
        i := i + 1;
      }
      assert chunks[..|chunks|] == chunks;
      ProcessPassConsistent(before, chunks, pass);
      assert EntriesConsistent(chunkFileInfo, IsScriptFile);
    }

    /** The inner loop of processAssets over the files of one entry chunk. */
    method CollectChunkFiles(pass: BuildPass, chunk: Chunk)
      modifies this`chunkFileInfo
      ensures chunkFileInfo == CollectFiles(old(chunkFileInfo), chunk, chunk.files, IsScriptFile, PassEntry(pass))
    {
      var j := 0;
      while j < |chunk.files|
        invariant 0 <= j <= |chunk.files|
        invariant chunkFileInfo == CollectFiles(old(chunkFileInfo), chunk, chunk.files[..j], IsScriptFile, PassEntry(pass))
      {
        assert chunk.files[..j + 1][..j] == chunk.files[..j];
        RecordFile(pass, chunk, chunk.files[j]);
        j := j + 1;
      }
      assert chunk.files[..|chunk.files|] == chunk.files;
    }

    /** One iteration of the inner loop: skip a non-script file, else get or create the chunk's map and set the file's entry. */
    method RecordFile(pass: BuildPass, chunk: Chunk, file: string)
      modifies this`chunkFileInfo
      ensures chunkFileInfo == AddFile(old(chunkFileInfo), chunk, file, IsScriptFile, PassEntry(pass))
    {
      var (filename, query) := SplitQuery(file);
      if Extname(filename) != ".js" {
        AddFileSkip(chunkFileInfo, chunk, file, pass);
        return;
      }
      var fileInfo := if chunk.id in chunkFileInfo then chunkFileInfo[chunk.id] else map[];
      var entry := BuildFileInfo(pass, chunk, file, filename, query);
      AddFileEntry(chunkFileInfo, chunk, file, pass);
      chunkFileInfo := chunkFileInfo[chunk.id := fileInfo[file := entry]];
    }

    /** The afterCompile hook: every tracked file becomes a dependency of the compilation. */
    method AfterCompile(deps: set<string>) returns (deps': set<string>)
      requires Valid()
      ensures deps' == deps + fileValidity.Keys
      ensures deps' <= deps + TrackedFiles()
    {
      deps' := deps + fileValidity.Keys;
    }
  }
}

=== FILE: plugin_logic.dfy ===
/**
 * The pure parts of lib/plugins/UserscriptPlugin.ts: package-info
 * normalisation, header-path resolution, header creation and validation,
 * header interpolation, and the per-file build-info step of processAssets.
 */
module PluginLogic {
  import opened Wrappers
  import opened Utils
  import opened Paths
  import opened Fs
  import opened HeaderSchema
  import opened Types

  // ---------------------------------------------------------------------
  // readPackageInfo (UserscriptPlugin.ts:224-255)
  // ---------------------------------------------------------------------

  /** `bugs.url` when it is a string, else `bugs` when it is a string, else "". */
  function BugsUrl(b: Bugs): (u: string)
    ensures u != "" ==> b == BugsText(u) || b == BugsObject(Some(u))
  {
    match b
    case BugsObject(Some(url)) => url
    case BugsText(s) => s
    case _ => ""
  }

  /** `x ?? ''`. */
  function OrEmpty(x: Option<string>): string {
    x.GetOr("")
  }

  /** The PackageInfo built from a parsed descriptor found at `root`. */
  function Normalize(root: string, pkg: PackageJson): PackageInfo {
    PackageInfo(root, OrEmpty(pkg.name), OrEmpty(pkg.version), OrEmpty(pkg.description),
                OrEmpty(pkg.author), OrEmpty(pkg.homepage), BugsUrl(pkg.bugs))
  }

  /** A descriptor holding exactly the fields of `info`. */
  function Describe(info: PackageInfo): PackageJson {
    PackageJson(Some(info.name), Some(info.version), Some(info.description),
                Some(info.author), Some(info.homepage), BugsText(info.bugs))
  }

  function EmptyInfo(root: string): PackageInfo {
    PackageInfo(root, "", "", "", "", "", "")
  }

  /** Normalisation loses nothing of a descriptor whose fields are all present strings. */
  lemma NormalizeDescribe(info: PackageInfo)
    ensures Normalize(info.root, Describe(info)) == info
  {
  }

  /** A descriptor with no usable field normalises to the all-empty info. */
  lemma NormalizeMissing(root: string, url: Option<string>)
    ensures Normalize(root, PackageJson(None, None, None, None, None, NoBugs)) == EmptyInfo(root)
    ensures Normalize(root, PackageJson(None, None, None, None, None, BugsObject(None))) == EmptyInfo(root)
  {
  }

  /** `bugs.url` takes precedence; an object without a string `url` gives "". */
  lemma BugsPrecedence(url: string, s: string)
    ensures BugsUrl(BugsObject(Some(url))) == url
    ensures BugsUrl(BugsText(s)) == s
    ensures BugsUrl(BugsObject(None)) == "" && BugsUrl(NoBugs) == ""
  {
  }

  /** `readJSON(path.join(root, 'package.json'))`, normalised. */
  function PackageInfoAt(root: string, fs: FileSystem, parse: string -> Result<PackageJson, string>): (r: Result<PackageInfo, FsError>)
    ensures r.Ok? ==> r.value.root == root
    ensures r.Ok? <==> ReadJson(Join(root, "package.json"), fs, parse).Ok?
    ensures r.Ok? ==> r.value == Normalize(root, ReadJson(Join(root, "package.json"), fs, parse).value)
    ensures r.Err? ==> r.error == ReadJson(Join(root, "package.json"), fs, parse).error
  {
    match ReadJson(Join(root, "package.json"), fs, parse)
    case Ok(pkg) => Ok(Normalize(root, pkg))
    case Err(e) => Err(e)
  }

  /** `readPackageInfo` as written: `root: false` gives the root "" and still reads "package.json". */
  function PackageInfoAsWritten(opt: RootOption, context: string, fs: FileSystem,
                                parse: string -> Result<PackageJson, string>): Result<PackageInfo, FsError> {
    match opt
    case RootAt(p) => PackageInfoAt(p, fs, parse)
    case NoRoot => PackageInfoAt("", fs, parse)
    case SearchRoot =>
      match Expected(fs.stat, context)
      case Ok(root) => PackageInfoAt(root, fs, parse)
      case Err(e) => Err(e)
  }

  /**
   * `readPackageInfo` as the option's documentation describes it: with
   * `root: false` nothing is searched or read and every field is empty.
   */
  function PackageInfoSpec(opt: RootOption, context: string, fs: FileSystem,
                           parse: string -> Result<PackageJson, string>): (r: Result<PackageInfo, FsError>)
    ensures opt.NoRoot? ==> r == Ok(EmptyInfo(""))
    ensures !opt.NoRoot? ==> r == PackageInfoAsWritten(opt, context, fs, parse)
  {
    if opt.NoRoot? then Ok(EmptyInfo("")) else PackageInfoAsWritten(opt, context, fs, parse)
  }

  /**
   * With `root: false` and no "package.json" readable relative to the
   * process, the code as written fails, although the option says the
   * package values are ignored.
   */
  lemma NoRootStillReads(context: string, fs: FileSystem, parse: string -> Result<PackageJson, string>)
    requires fs.readFile("package.json").Err?
    ensures PackageInfoAsWritten(NoRoot, context, fs, parse).Err?
    ensures PackageInfoSpec(NoRoot, context, fs, parse) == Ok(EmptyInfo(""))
  {
    assert Join("", "package.json") == "package.json";
  }

  /** A searched root is the first ancestor of the context holding a regular package.json. */
  lemma SearchedRootIsPackageRoot(context: string, fs: FileSystem, parse: string -> Result<PackageJson, string>)
    requires PackageInfoSpec(SearchRoot, context, fs, parse).Ok?
    ensures PackageRoot(fs.stat, context) == Some(PackageInfoSpec(SearchRoot, context, fs, parse).value.root)
  {
  }

  // ---------------------------------------------------------------------
  // resolveHeaderPath (UserscriptPlugin.ts:257-269)
  // ---------------------------------------------------------------------

  const HeadersFile := "headers.json"

  /** The header file to read, or "" when the headers are given inline. */
  function ResolveHeaderPath(opt: HeadersOption, context: string): (p: string)
    ensures p == "" <==> opt.HeadersInline? || opt == HeadersAt("")
    ensures opt.HeadersAt? ==> p == opt.path
    ensures opt.HeadersDefault? ==> EndsWith(p, HeadersFile)
  {
    match opt
    case HeadersDefault => Join(context, HeadersFile)
    case HeadersAt(path) => path
    case HeadersInline(_) => ""
  }

  /** The override object passed to createHeader when no file is read. */
  function InlineOverrides(opt: HeadersOption): Header {
    // The string "" contributes no own property to `Object.assign`.
    if opt.HeadersInline? then opt.header else map[]
  }

  // ---------------------------------------------------------------------
  // createHeader (UserscriptPlugin.ts:271-295)
  // ---------------------------------------------------------------------

  /** JavaScript truthiness of a header value: "" and false are falsy, arrays and objects are not. */
  predicate Truthy(v: TagValue) {
    match v
    case Str(s) => s != ""
    case Flag(b) => b
    case _ => true
  }

  const DefaultMatch := "*://*/*"

  predicate HasTruthyInclude(overrides: Header) {
    "include" in overrides && Truthy(overrides["include"])
  }

  /** The candidate defaults, in the order they are listed, before the empty ones are dropped. */
  function DefaultPairs(pkg: PackageInfo, overrides: Header): seq<(string, string)> {
    [ ("name", pkg.name), ("version", pkg.version), ("author", pkg.author),
      ("description", pkg.description), ("homepage", pkg.homepage), ("supportURL", pkg.bugs),
      ("match", if HasTruthyInclude(overrides) then "" else DefaultMatch) ]
  }

  const DefaultTags: set<string> := {"name", "version", "author", "description", "homepage", "supportURL", "match"}

  function PairKeys(pairs: seq<(string, string)>): set<string> {
    set i | 0 <= i < |pairs| :: pairs[i].0
  }

  /** `Object.fromEntries(pairs.filter(([, v]) => !!v))` over string pairs. */
  function NonEmptyEntries(pairs: seq<(string, string)>): (h: Header)
    ensures forall k :: k in h ==> k in PairKeys(pairs) && h[k].Str? && h[k].s != ""
    decreases |pairs|
  {
    if pairs == [] then map[]
    else
      var init := pairs[..|pairs| - 1];
      var last := pairs[|pairs| - 1];
      var h := NonEmptyEntries(init);
      assert forall k :: k in PairKeys(init) ==> k in PairKeys(pairs) by {
        forall k | k in PairKeys(init) ensures k in PairKeys(pairs) {
          var i :| 0 <= i < |init| && init[i].0 == k;
          assert pairs[i].0 == k;
        }
      }
      if last.1 != "" then h[last.0 := Str(last.1)] else h
  }

  /** With distinct keys, a pair is in the filtered object exactly when its value is non-empty. */
  lemma {:induction false} NonEmptyEntriesAt(pairs: seq<(string, string)>, i: nat)
    requires i < |pairs|
    requires forall a, b :: 0 <= a < b < |pairs| ==> pairs[a].0 != pairs[b].0
    ensures pairs[i].0 in NonEmptyEntries(pairs) <==> pairs[i].1 != ""
    ensures pairs[i].0 in NonEmptyEntries(pairs) ==> NonEmptyEntries(pairs)[pairs[i].0] == Str(pairs[i].1)
    decreases |pairs|
  {
    var init := pairs[..|pairs| - 1];
    if i < |pairs| - 1 {
      NonEmptyEntriesAt(init, i);
      assert pairs[i] == init[i];
      assert pairs[i].0 != pairs[|pairs| - 1].0;
    }
  }

  /** The defaults createHeader derives from the package info. */
  function PackageDefaults(pkg: PackageInfo, overrides: Header): (h: Header)
    ensures forall k :: k in h ==> k in DefaultTags && h[k].Str?
  {
    var pairs := DefaultPairs(pkg, overrides);
    assert PairKeys(pairs) == DefaultTags by {
      assert pairs[0].0 == "name" && pairs[1].0 == "version" && pairs[2].0 == "author";
      assert pairs[3].0 == "description" && pairs[4].0 == "homepage";
      assert pairs[5].0 == "supportURL" && pairs[6].0 == "match";
    }
    NonEmptyEntries(pairs)
  }

  /** The header validator rejected the merged object (its message is not modelled). */
  datatype HeaderError = InvalidHeader(rejected: Header)

  /** `Object.assign(defaults, overrides)`, then validation. */
  function CreateHeader(pkg: PackageInfo, overrides: Header): (r: Result<Header, HeaderError>)
    ensures r.Ok? ==> ValidHeader(r.value)
    ensures r.Ok? ==> forall k :: k in overrides ==> k in r.value && r.value[k] == overrides[k]
    ensures r.Ok? ==> forall k :: k in r.value ==> k in overrides || k in DefaultTags
  {
    var merged := PackageDefaults(pkg, overrides) + overrides;
    if ValidHeader(merged) then Ok(merged) else Err(InvalidHeader(merged))
  }

  predicate OverridesWellTyped(overrides: Header) {
    forall k :: k in overrides ==> TagValid(k, overrides[k])
  }

  /**
   * createHeader succeeds exactly when every override is well typed and
   * `name` and `version` are each given by an override or a non-empty package field.
   */
  lemma CreateHeaderSucceeds(pkg: PackageInfo, overrides: Header)
    ensures CreateHeader(pkg, overrides).Ok? <==>
      (OverridesWellTyped(overrides) &&
       ("name" in overrides || pkg.name != "") &&
       ("version" in overrides || pkg.version != ""))
  {
    var d := PackageDefaults(pkg, overrides);
    assert CreateHeader(pkg, overrides).Ok? <==> ValidHeader(d + overrides);
    DefaultsWellTyped(pkg, overrides);
    MergeValid(d, overrides);
    DefaultPresent(pkg, overrides, 0);
    DefaultPresent(pkg, overrides, 1);
  }

  /** A default tag is present exactly when its package field is non-empty. */
  lemma DefaultPresent(pkg: PackageInfo, overrides: Header, i: nat)
    requires i < 7
    ensures var p := DefaultPairs(pkg, overrides)[i];
      && (p.0 in PackageDefaults(pkg, overrides) <==> p.1 != "")
      && (p.0 in PackageDefaults(pkg, overrides) ==> PackageDefaults(pkg, overrides)[p.0] == Str(p.1))
  {
    DefaultPairsDistinct(pkg, overrides);
    NonEmptyEntriesAt(DefaultPairs(pkg, overrides), i);
  }

  /** Defaults that are all well typed, overridden by `o`, are valid exactly when `o` is well typed and `name` and `version` come from one side. */
  lemma MergeValid(d: Header, o: Header)
    requires OverridesWellTyped(d)
    ensures ValidHeader(d + o) <==>
      (OverridesWellTyped(o) && ("name" in o || "name" in d) && ("version" in o || "version" in d))
  {
    if OverridesWellTyped(o) {
      forall k | k in d + o ensures TagValid(k, (d + o)[k]) {
        if k in o { assert (d + o)[k] == o[k]; } else { assert (d + o)[k] == d[k]; }
      }
    }
    if ValidHeader(d + o) {
      forall k | k in o ensures TagValid(k, o[k]) {
        assert (d + o)[k] == o[k];
      }
    }
  }

  /** Every default is a string, which each default tag accepts. */
  lemma DefaultsWellTyped(pkg: PackageInfo, overrides: Header)
    ensures OverridesWellTyped(PackageDefaults(pkg, overrides))
  {
    var d := PackageDefaults(pkg, overrides);
    forall k | k in d ensures TagValid(k, d[k]) {
      assert k in DefaultTags;
    }
  }

  /**
   * A tag in DefaultTags that no override names is in the result exactly
   * when its package value is non-empty, and then holds that value.
   */
  lemma CreateHeaderDefault(pkg: PackageInfo, overrides: Header, i: nat)
    requires i < 7
    requires CreateHeader(pkg, overrides).Ok?
    requires DefaultPairs(pkg, overrides)[i].0 !in overrides
    ensures var p := DefaultPairs(pkg, overrides)[i];
      && (p.0 in CreateHeader(pkg, overrides).value <==> p.1 != "")
      && (p.0 in CreateHeader(pkg, overrides).value ==> CreateHeader(pkg, overrides).value[p.0] == Str(p.1))
  {
    DefaultPresent(pkg, overrides, i);
    assert CreateHeader(pkg, overrides).value == PackageDefaults(pkg, overrides) + overrides;
  }

  /** The default tags are distinct (their names even differ in length). */
  lemma DefaultPairsDistinct(pkg: PackageInfo, overrides: Header)
    ensures forall a, b :: 0 <= a < b < 7 ==> DefaultPairs(pkg, overrides)[a].0 != DefaultPairs(pkg, overrides)[b].0
  {
    var pairs := DefaultPairs(pkg, overrides);
    assert |pairs[0].0| == 4 && |pairs[1].0| == 7 && |pairs[2].0| == 6 && |pairs[3].0| == 11;
    assert |pairs[4].0| == 8 && |pairs[5].0| == 10 && |pairs[6].0| == 5;
  }

  /** Without a `match` override, `match` is the catch-all DefaultMatch exactly when `include` is absent or falsy. */
  lemma CreateHeaderMatch(pkg: PackageInfo, overrides: Header)
    requires CreateHeader(pkg, overrides).Ok?
    requires "match" !in overrides
    ensures "match" in CreateHeader(pkg, overrides).value <==> !HasTruthyInclude(overrides)
    ensures "match" in CreateHeader(pkg, overrides).value ==>
      CreateHeader(pkg, overrides).value["match"] == Str(DefaultMatch)
  {
    CreateHeaderDefault(pkg, overrides, 6);
  }

  /** An empty `include` array is truthy, so it suppresses the default `match`. */
  lemma EmptyIncludeSuppressesMatch(pkg: PackageInfo, overrides: Header)
    requires CreateHeader(pkg, overrides).Ok?
    requires "match" !in overrides && "include" in overrides && overrides["include"] == StrList([])
    ensures "match" !in CreateHeader(pkg, overrides).value
  {
    CreateHeaderMatch(pkg, overrides);
  }

  /** An override wins over the package value. */
  lemma OverrideWins(pkg: PackageInfo, name: string)
    requires pkg.version != ""
    ensures CreateHeader(pkg, map["name" := Str(name)]).Ok?
    ensures CreateHeader(pkg, map["name" := Str(name)]).value["name"] == Str(name)
  {
    CreateHeaderSucceeds(pkg, map["name" := Str(name)]);
  }

  /** A package with only a name and a version and no overrides. */
  lemma CreateHeaderDemo(root: string)
    ensures CreateHeader(PackageInfo(root, "Demo", "1.0.0", "", "", "", ""), map[]) ==
      Ok(map["name" := Str("Demo"), "version" := Str("1.0.0"), "match" := Str(DefaultMatch)])
  {
    var pkg := PackageInfo(root, "Demo", "1.0.0", "", "", "", "");
    var o: Header := map[];
    CreateHeaderSucceeds(pkg, o);
    var h := CreateHeader(pkg, o).value;
    var want := map["name" := Str("Demo"), "version" := Str("1.0.0"), "match" := Str(DefaultMatch)];
    CreateHeaderDefault(pkg, o, 0);
    CreateHeaderDefault(pkg, o, 1);
    CreateHeaderDefault(pkg, o, 2);
    CreateHeaderDefault(pkg, o, 3);
    CreateHeaderDefault(pkg, o, 4);
    CreateHeaderDefault(pkg, o, 5);
    CreateHeaderDefault(pkg, o, 6);
    var pairs := DefaultPairs(pkg, o);
    assert pairs[0].0 == "name" && pairs[1].0 == "version" && pairs[2].0 == "author";
    assert pairs[3].0 == "description" && pairs[4].0 == "homepage";
    assert pairs[5].0 == "supportURL" && pairs[6].0 == "match";
    assert pairs[6].1 == DefaultMatch;
    assert h.Keys == want.Keys;
    assert h["name"] == want["name"] && h["version"] == want["version"] && h["match"] == want["match"];
    assert h == want;
  }

  /** What a hook of the plugin can fail with. */
  datatype PluginError = FsFailure(fsError: FsError) | HeaderFailure(headerError: HeaderError)

  /**
   * The header loadHeaders builds: from the header file when `path` is
   * non-empty, else from the inline option.
   */
  function BuildHeaders(pkg: PackageInfo, path: string, opt: HeadersOption, fs: FileSystem,
                        parse: string -> Result<Header, string>): (r: Result<Header, PluginError>)
    ensures r.Ok? ==> ValidHeader(r.value)
    ensures path == "" ==> (r.Ok? <==> CreateHeader(pkg, InlineOverrides(opt)).Ok?)
    ensures path != "" && r.Ok? ==> ReadJson(path, fs, parse).Ok?
    ensures path != "" && ReadJson(path, fs, parse).Err? ==> r == Err(FsFailure(ReadJson(path, fs, parse).error))
  {
    var overrides :=
      if path == "" then Ok(InlineOverrides(opt))
      else match ReadJson(path, fs, parse)
        case Ok(o) => Ok(o)
        case Err(e) => Err(FsFailure(e));
    match overrides
    case Err(e) => Err(e)
    case Ok(o) =>
      match CreateHeader(pkg, o)
      case Ok(h) => Ok(h)
      case Err(e) => Err(HeaderFailure(e))
  }

  /**
   * The header that loadHeaders builds is createHeader's result on the
   * overrides it reads: the inline option for an empty path, else the
   * parsed header file; it succeeds exactly when that createHeader does.
   */
  lemma BuildHeadersValue(pkg: PackageInfo, path: string, opt: HeadersOption, fs: FileSystem,
                          parse: string -> Result<Header, string>)
    ensures var r := BuildHeaders(pkg, path, opt, fs, parse);
      && (path != "" && ReadJson(path, fs, parse).Ok? ==>
            (r.Ok? <==> CreateHeader(pkg, ReadJson(path, fs, parse).value).Ok?))
      && (r.Ok? && path == "" ==> r.value == CreateHeader(pkg, InlineOverrides(opt)).value)
      && (r.Ok? && path != "" ==> r.value == CreateHeader(pkg, ReadJson(path, fs, parse).value).value)
      && (r.Err? && r.error.HeaderFailure? ==>
            CreateHeader(pkg, if path == "" then InlineOverrides(opt) else ReadJson(path, fs, parse).value)
              == Err(r.error.headerError))
  {
  }


  // ---------------------------------------------------------------------
  // interpolateHeaders (UserscriptPlugin.ts:297-318)
  // ---------------------------------------------------------------------

  /** A string entry is interpolated; any other entry is kept. */
  function InterpolateEntry(e: Entry, info: map<string, string>): Entry {
    match e
    case Text(s) => Text(Interpolate(s, info))
    case Opaque(_) => e
  }

  /** `Object.entries(value).map(([n, v]) => [interpolate(n), ...])`. */
  function InterpolatePairs(r: seq<(string, Entry)>, info: map<string, string>): seq<(string, Entry)> {
    seq(|r|, i requires 0 <= i < |r| => (Interpolate(r[i].0, info), InterpolateEntry(r[i].1, info)))
  }

  lemma InterpolatePairsKeys(r: seq<(string, Entry)>, info: map<string, string>)
    ensures Keys(InterpolatePairs(r, info)) == set i | 0 <= i < |r| :: Interpolate(r[i].0, info)
  {
    var pairs := InterpolatePairs(r, info);
    var want := set i | 0 <= i < |r| :: Interpolate(r[i].0, info);
    forall k | k in Keys(pairs) ensures k in want {
      var i :| 0 <= i < |pairs| && pairs[i].0 == k;
      assert Interpolate(r[i].0, info) == k;
    }
    forall k | k in want ensures k in Keys(pairs) {
      var i :| 0 <= i < |r| && Interpolate(r[i].0, info) == k;
      assert pairs[i].0 == k;
    }
  }

  /** The object branch: keys and string entries interpolated, then `Object.fromEntries`. */
  function InterpolateRecord(r: seq<(string, Entry)>, info: map<string, string>): (r': seq<(string, Entry)>)
    ensures UniqueKeys(r')
    ensures Keys(r') == set i | 0 <= i < |r| :: Interpolate(r[i].0, info)
  {
    var pairs := InterpolatePairs(r, info);
    FromEntriesKeys(pairs);
    InterpolatePairsKeys(r, info);
    FromEntries(pairs)
  }

  /** `Object.entries` of an array: its elements under the keys "0", "1", ... */
  function ArrayEntries(xs: seq<string>): seq<(string, Entry)> {
    seq(|xs|, i requires 0 <= i < |xs| => (DecimalString(i), Text(xs[i])))
  }

  /** One header value as intended: arrays are interpolated element by element. */
  function InterpolateValue(v: TagValue, info: map<string, string>): TagValue {
    match v
    case Str(s) => Str(Interpolate(s, info))
    case StrList(xs) => StrList(seq(|xs|, i requires 0 <= i < |xs| => Interpolate(xs[i], info)))
    case Flag(_) => v
    case Rec(r) => Rec(InterpolateRecord(r, info))
  }

  /**
   * One header value as written: `typeof` of an array is 'object', so an
   * array takes the object branch and comes out as an index-keyed record.
   */
  function InterpolateValueAsWritten(v: TagValue, info: map<string, string>): TagValue {
    match v
    case Str(s) => Str(Interpolate(s, info))
    case StrList(xs) => Rec(InterpolateRecord(ArrayEntries(xs), info))
    case Flag(_) => v
    case Rec(r) => Rec(InterpolateRecord(r, info))
  }

  function InterpolateHeaders(h: Header, info: map<string, string>): (r: Header)
    ensures r.Keys == h.Keys
  {
    map t | t in h :: InterpolateValue(h[t], info)
  }

  function InterpolateHeadersAsWritten(h: Header, info: map<string, string>): (r: Header)
    ensures r.Keys == h.Keys
  {
    map t | t in h :: InterpolateValueAsWritten(h[t], info)
  }

  /** A string with no `[` holds no token. */
  lemma NoBracketTokenFree(s: string)
    requires forall i :: 0 <= i < |s| ==> s[i] != '['
    ensures TokenFree(s)
  {
    forall i | 0 <= i < |s| ensures TokenAt(s[i..]).None? {
      assert s[i..][0] == s[i];
    }
  }

  /** A single known token followed by text without `[`: the token is replaced and the text kept. */
  lemma TokenThenText(w: string, tail: string, info: map<string, string>)
    requires IsWord(w) && w in info
    requires forall i :: 0 <= i < |tail| ==> tail[i] != '['
    ensures Interpolate(Bracketed(w) + tail, info) == info[w] + tail
  {
    InterpolateToken(w, tail, info);
    NoBracketTokenFree(tail);
    InterpolateTokenFree(tail, info);
  }

  /** The default output file name template: `[basename].user.js` becomes the basename followed by ".user.js". */
  lemma BasenameTemplate(info: map<string, string>)
    requires "basename" in info
    ensures Interpolate("[basename].user.js", info) == info["basename"] + ".user.js"
  {
    var w, tail := "basename", ".user.js";
    assert IsWord(w);
    assert "[basename].user.js" == Bracketed(w) + tail;
    TokenThenText(w, tail, info);
  }

  /** The five `run-at` literals hold no token, so interpolation keeps them. */
  lemma RunAtFixed(s: string, info: map<string, string>)
    requires s in RunAtValues
    ensures Interpolate(s, info) == s
  {
    NoBracketTokenFree(s);
    InterpolateTokenFree(s, info);
  }

  lemma {:induction false} SetEntryAllText(r: seq<(string, Entry)>, k: string, v: Entry)
    requires AllText(r) && v.Text?
    ensures AllText(SetEntry(r, k, v))
    decreases |r|
  {
    if r != [] && r[0].0 != k {
      SetEntryAllText(r[1..], k, v);
      assert SetEntry(r, k, v) == [r[0]] + SetEntry(r[1..], k, v);
    }
  }

  lemma {:induction false} FromEntriesAllText(pairs: seq<(string, Entry)>)
    requires AllText(pairs)
    ensures AllText(FromEntries(pairs))
    decreases |pairs|
  {
    if pairs != [] {
      var init := pairs[..|pairs| - 1];
      FromEntriesAllText(init);
      SetEntryAllText(FromEntries(init), pairs[|pairs| - 1].0, pairs[|pairs| - 1].1);
    }
  }

  /** A record of strings stays a record of strings. */
  lemma InterpolateRecordAllText(r: seq<(string, Entry)>, info: map<string, string>)
    requires AllText(r)
    ensures AllText(InterpolateRecord(r, info))
  {
    FromEntriesAllText(InterpolatePairs(r, info));
  }

  /** Interpolation keeps every tag's value within what the schema accepts for that tag. */
  lemma InterpolateValueValid(t: string, v: TagValue, info: map<string, string>)
    requires TagValid(t, v)
    ensures TagValid(t, InterpolateValue(v, info))
  {
    if v.Rec? && t in NamedTags {
      InterpolateRecordAllText(v.entries, info);
    } else if t == "run-at" && t !in StringTags && t !in RepeatableTags && t !in NamedTags && t !in FlagTags {
      RunAtFixed(v.s, info);
    }
  }

  /** Interpolating a valid header gives a valid header whose records have distinct keys. */
  lemma InterpolateHeadersValid(h: Header, info: map<string, string>)
    ensures ValidHeader(h) ==> ValidHeader(InterpolateHeaders(h, info))
    ensures WellFormedHeader(InterpolateHeaders(h, info))
  {
    if ValidHeader(h) {
      forall t | t in h ensures TagValid(t, InterpolateHeaders(h, info)[t]) {
        InterpolateValueValid(t, h[t], info);
      }
    }
  }

  /** Every string of a header value, record keys included, holds no token. */
  predicate ValueTokenFree(v: TagValue) {
    match v
    case Str(s) => TokenFree(s)
    case StrList(xs) => forall i :: 0 <= i < |xs| ==> TokenFree(xs[i])
    case Flag(_) => true
    case Rec(r) =>
      UniqueKeys(r) &&
      forall i :: 0 <= i < |r| ==> TokenFree(r[i].0) && (r[i].1.Text? ==> TokenFree(r[i].1.s))
  }

  /** A record without templates and with distinct keys is left as it is. */
  lemma InterpolateRecordTemplateFree(r: seq<(string, Entry)>, info: map<string, string>)
    requires ValueTokenFree(Rec(r))
    ensures InterpolateRecord(r, info) == r
  {
    var pairs := InterpolatePairs(r, info);
    forall i | 0 <= i < |r| ensures pairs[i] == r[i] {
      InterpolateTokenFree(r[i].0, info);
      if r[i].1.Text? { InterpolateTokenFree(r[i].1.s, info); }
    }
    assert pairs == r;
    FromEntriesIdentity(r);
  }

  /** A value without templates is left as it is. */
  lemma InterpolateValueTemplateFree(v: TagValue, info: map<string, string>)
    requires ValueTokenFree(v)
    ensures InterpolateValue(v, info) == v
  {
    match v
    case Str(s) => InterpolateTokenFree(s, info);
    case StrList(xs) =>
      forall i | 0 <= i < |xs| ensures Interpolate(xs[i], info) == xs[i] {
        InterpolateTokenFree(xs[i], info);
      }
    case Flag(_) =>
    case Rec(r) => InterpolateRecordTemplateFree(r, info);
  }

  /** A header without templates, whose records have distinct keys, is left as it is. */
  lemma InterpolateHeadersTemplateFree(h: Header, info: map<string, string>)
    requires forall t :: t in h ==> ValueTokenFree(h[t])
    ensures InterpolateHeaders(h, info) == h
  {
    forall t | t in h ensures InterpolateValue(h[t], info) == h[t] {
      InterpolateValueTemplateFree(h[t], info);
    }
  }

  /** The as-written interpolation agrees with the intended one on headers without arrays. */
  lemma AsWrittenAgreesWithoutArrays(h: Header, info: map<string, string>)
    requires forall t :: t in h ==> !h[t].StrList?
    ensures InterpolateHeadersAsWritten(h, info) == InterpolateHeaders(h, info)
  {
  }

  /** As written, an array value of a repeatable tag comes out as a record, which the schema rejects. */
  lemma AsWrittenBreaksArrays(h: Header, info: map<string, string>, t: string)
    requires t in h && h[t].StrList? && t in RepeatableTags
    ensures !TagValid(t, InterpolateHeadersAsWritten(h, info)[t])
    ensures !ValidHeader(InterpolateHeadersAsWritten(h, info))
  {
  }

  /** A concrete valid header that the as-written interpolation makes invalid. */
  lemma AsWrittenCounterexample(info: map<string, string>)
    ensures var h := map["name" := Str("n"), "version" := Str("1"), "match" := StrList(["a"])];
      ValidHeader(h) && !ValidHeader(InterpolateHeadersAsWritten(h, info)) && ValidHeader(InterpolateHeaders(h, info))
  {
    var h := map["name" := Str("n"), "version" := Str("1"), "match" := StrList(["a"])];
    assert "match" !in StringTags && "match" in RepeatableTags;
    assert TagValid("name", h["name"]) && TagValid("version", h["version"]) && TagValid("match", h["match"]);
    assert ValidHeader(h);
    AsWrittenBreaksArrays(h, info, "match");
    InterpolateHeadersValid(h, info);
  }

  // ---------------------------------------------------------------------
  // Per-file build info (UserscriptPlugin.ts:105-178)
  // ---------------------------------------------------------------------

  /** `s.indexOf(c)`: the first index of `c`, or -1. */
  function IndexOf(s: string, c: char): (k: int)
    ensures -1 <= k < |s|
    ensures k >= 0 ==> s[k] == c
    ensures forall j :: 0 <= j < |s| && (k < 0 || j < k) ==> s[j] != c
  {
    if s == [] then -1
    else if s[0] == c then 0
    else var k := IndexOf(s[1..], c); if k < 0 then -1 else k + 1
  }

  /** The file name up to its first `?`, and the query text from there on. */
  function SplitQuery(file: string): (r: (string, string))
    ensures r.0 + r.1 == file
    ensures forall i :: 0 <= i < |r.0| ==> r.0[i] != '?'
    ensures r.1 == "" || r.1[0] == '?'
  {
    var q := IndexOf(file, '?');
    if q >= 0 then (file[..q], file[q..]) else (file, "")
  }

  /** Files whose name, query removed, has the extension ".js" are processed. */
  predicate IsScriptFile(file: string) {
    Extname(SplitQuery(file).0) == ".js"
  }

  const UserJs := ".user.js"
  const Js := ".js"

  /** The basename: the last segment without ".user.js" if it ends so, else without ".js". */
  function FileBasename(filename: string): string {
    if EndsWith(filename, UserJs) then Basename(filename, UserJs)
    else if EndsWith(filename, Js) then Basename(filename, Js)
    else filename
  }

  lemma EndsWithSegment(p: string, suffix: string)
    requires EndsWith(LastSegment(p), suffix)
    ensures EndsWith(p, suffix)
  {
    var seg := LastSegment(p);
    assert p[|p| - |suffix|..] == seg[|seg| - |suffix|..];
  }

  /** A slash of a path lies before any slash-free suffix of it. */
  lemma SlashBeforeSuffix(p: string, suffix: string, j: nat)
    requires EndsWith(p, suffix)
    requires forall i :: 0 <= i < |suffix| ==> suffix[i] != '/'
    requires j < |p| && p[j] == '/'
    ensures j < |p| - |suffix|
  {
    var start := |p| - |suffix|;
    forall i | start <= i < |p| ensures p[i] != '/' {
      assert p[i] == p[start..][i - start];
    }
  }

  /** A suffix without a slash that ends a path also ends its last segment. */
  lemma SegmentEndsWith(p: string, suffix: string)
    requires EndsWith(p, suffix)
    requires forall i :: 0 <= i < |suffix| ==> suffix[i] != '/'
    ensures EndsWith(LastSegment(p), suffix)
  {
    var seg := LastSegment(p);
    LastSegmentMaximal(p);
    if |seg| < |p| {
      SlashBeforeSuffix(p, suffix, |p| - |seg| - 1);
    }
    assert p[|p| - |suffix|..] == seg[|seg| - |suffix|..];
  }

  lemma UserJsEndsWithJs(f: string)
    requires EndsWith(f, UserJs)
    ensures EndsWith(f, Js)
  {
    assert f[|f| - |Js|..] == f[|f| - |UserJs|..][|UserJs| - |Js|..];
  }

  /**
   * The basename of a script is its last segment with exactly one suffix
   * removed, ".user.js" when present, otherwise ".js", unless nothing would
   * remain: a last segment that is the bare suffix is kept, and a file name
   * that is the bare suffix gives "". A name without ".js" is kept whole.
   */
  lemma FileBasenameStripsSuffix(filename: string)
    ensures var seg := LastSegment(filename);
      EndsWith(seg, UserJs) && |seg| > |UserJs| ==> FileBasename(filename) + UserJs == seg
    ensures var seg := LastSegment(filename);
      !EndsWith(seg, UserJs) && EndsWith(seg, Js) && |seg| > |Js| ==> FileBasename(filename) + Js == seg
    ensures var seg := LastSegment(filename);
      seg == UserJs || seg == Js ==> FileBasename(filename) == (if filename == seg then "" else seg)
    ensures !EndsWith(filename, Js) ==> FileBasename(filename) == filename
  {
    var seg := LastSegment(filename);
    assert forall i :: 0 <= i < |UserJs| ==> UserJs[i] != '/';
    assert forall i :: 0 <= i < |Js| ==> Js[i] != '/';
    if EndsWith(filename, UserJs) {
      SegmentEndsWith(filename, UserJs);
      UserJsEndsWithJs(filename);
      if |seg| > |UserJs| {
        assert seg == seg[..|seg| - |UserJs|] + UserJs;
      }
    } else if EndsWith(filename, Js) {
      SegmentEndsWith(filename, Js);
      if |seg| > |Js| {
        assert seg == seg[..|seg| - |Js|] + Js;
      }
    } else {
      if EndsWith(seg, UserJs) {
        EndsWithSegment(filename, UserJs);
      }
      if EndsWith(seg, Js) {
        EndsWithSegment(filename, Js);
      }
    }
  }

  /**
   * The text `[query]` is replaced by: the query without its leading `?`.
   * The URLSearchParams serialisation of that text is not modelled.
   */
  function QueryString(query: string): string {
    if query != [] && query[0] == '?' then query[1..] else query
  }

  /** The string form of every field of a BuildInfo, as interpolation looks it up. */
  function InfoRecord(b: BuildInfo): map<string, string> {
    map[
      "root" := b.pkg.root, "name" := b.pkg.name, "version" := b.pkg.version,
      "author" := b.pkg.author, "description" := b.pkg.description,
      "homepage" := b.pkg.homepage, "bugs" := b.pkg.bugs,
      "buildTime" := DecimalString(b.buildTime), "hash" := b.hash,
      "basename" := b.basename, "query" := QueryString(b.query), "file" := b.file,
      "filename" := b.filename, "chunkHash" := b.chunkHash, "chunkName" := b.chunkName]
  }

  /** The base URL of downloadURL: the object's `downloadUrl`, or the string itself. */
  function DownloadBase(p: PublicUrl): Option<string> {
    match p
    case NoPublicUrl => None
    case PublicUrlBase(u) => Some(u)
    case PublicUrlParts(d, _) => d
  }

  function UpdateBase(p: PublicUrl): Option<string> {
    match p
    case NoPublicUrl => None
    case PublicUrlBase(u) => Some(u)
    case PublicUrlParts(_, u) => u
  }

  /** `resolveUrl(url, base)`: WHATWG URL resolution, taken as a given total function. */
  type Resolver = (string, Option<string>) -> string

  /** Resolve `tag` against `base` when its value is a string. */
  function ResolveTag(h: Header, tag: string, base: Option<string>, resolve: Resolver): (r: Header)
    ensures r.Keys == h.Keys
    ensures forall t :: t in h && t != tag ==> r[t] == h[t]
    ensures tag in h && h[tag].Str? ==> r[tag] == Str(resolve(h[tag].s, base))
    ensures tag in h && !h[tag].Str? ==> r[tag] == h[tag]
  {
    if tag in h && h[tag].Str? then h[tag := Str(resolve(h[tag].s, base))] else h
  }

  /** The downloadURL and updateURL rewriting; it keeps every other tag and validity. */
  function ResolveUrls(h: Header, p: PublicUrl, resolve: Resolver): (r: Header)
    ensures r.Keys == h.Keys
    ensures forall t :: t in h && t != "downloadURL" && t != "updateURL" ==> r[t] == h[t]
    ensures ValidHeader(h) ==> ValidHeader(r)
    ensures WellFormedHeader(h) ==> WellFormedHeader(r)
  {
    ResolveTag(ResolveTag(h, "downloadURL", DownloadBase(p), resolve), "updateURL", UpdateBase(p), resolve)
  }

  /** What one processAssets pass shares between all files. */
  datatype BuildPass = BuildPass(
    pkg: PackageInfo,
    hash: string,         // compilation.hash ?? ''
    buildTime: nat,       // Date.now(), taken as an input
    raw: Header,
    publicUrl: PublicUrl,
    resolve: Resolver)

  function MakeBuildInfo(pass: BuildPass, c: Chunk, file: string): (b: BuildInfo)
    ensures b.file == file && b.filename + b.query == file
    ensures (b.filename, b.query) == SplitQuery(file)
    ensures b.basename == FileBasename(b.filename)
    ensures b.chunkHash == c.hash.GetOr("") && b.chunkName == c.name
    ensures b.pkg == pass.pkg && b.hash == pass.hash && b.buildTime == pass.buildTime
  {
    var (filename, query) := SplitQuery(file);
    BuildInfo(pass.pkg, pass.hash, pass.buildTime, c.hash.GetOr(""), c.name,
              file, filename, FileBasename(filename), query)
  }

  /** The entry recorded for `file` of chunk `c`. */
  function FileEntry(pass: BuildPass, c: Chunk, file: string): (e: FileInfo)
    ensures e.buildInfo == MakeBuildInfo(pass, c, file)
    ensures e.headers.Keys == pass.raw.Keys
    ensures ValidHeader(pass.raw) ==> ValidHeader(e.headers) && WellFormedHeader(e.headers)
  {
    var b := MakeBuildInfo(pass, c, file);
    var h := InterpolateHeaders(pass.raw, InfoRecord(b));
    InterpolateHeadersValid(pass.raw, InfoRecord(b));
    FileInfo(b, ResolveUrls(h, pass.publicUrl, pass.resolve))
  }

  /** A header tag holding exactly one token of the build info gets that field's string form. */
  lemma FileEntryToken(pass: BuildPass, c: Chunk, file: string, t: string, w: string)
    requires t in pass.raw && pass.raw[t] == Str(Bracketed(w)) && IsWord(w)
    requires w in InfoRecord(MakeBuildInfo(pass, c, file))
    requires t != "downloadURL" && t != "updateURL"
    ensures FileEntry(pass, c, file).headers[t] == Str(InfoRecord(MakeBuildInfo(pass, c, file))[w])
  {
    var info := InfoRecord(MakeBuildInfo(pass, c, file));
    InterpolateToken(w, "", info);
    assert Bracketed(w) + "" == Bracketed(w);
    assert Interpolate("", info) == "";
    assert info[w] + "" == info[w];
  }

  /** The recorded entries: chunk id, then file, to entry. */
  type ChunkFiles = map<string, map<string, FileInfo>>

  function Find(m: ChunkFiles, id: string, file: string): Option<FileInfo> {
    if id in m && file in m[id] then Some(m[id][file]) else None
  }

  /** Decides which files of a chunk are processed. */
  type FileFilter = string -> bool

  /** Builds the entry of one processed file of a chunk. */
  type EntryBuilder = (Chunk, string) -> FileInfo

  /**
   * The inner loop over `files` of chunk `c`, as a fold from the first file
   * to the last: get or create the chunk's map, then set the file's entry.
   */
  function CollectFiles(m: ChunkFiles, c: Chunk, files: seq<string>, keep: FileFilter, entry: EntryBuilder): ChunkFiles
    decreases |files|
  {
    if files == [] then m
    else AddFile(CollectFiles(m, c, files[..|files| - 1], keep, entry), c, files[|files| - 1], keep, entry)
  }

  /** One step of the inner loop: skip a file that is not kept, else get or create the chunk's map and set the file's entry. */
  function AddFile(m: ChunkFiles, c: Chunk, file: string, keep: FileFilter, entry: EntryBuilder): ChunkFiles {
    if !keep(file) then m
    else
      var fileInfo := if c.id in m then m[c.id] else map[];
      m[c.id := fileInfo[file := entry(c, file)]]
  }

  /** The outer loop over the entry chunks, as a fold from the first chunk to the last. */
  function CollectChunks(m: ChunkFiles, chunks: seq<Chunk>, keep: FileFilter, entry: EntryBuilder): ChunkFiles
    decreases |chunks|
  {
    if chunks == [] then m
    else
      var last := chunks[|chunks| - 1];
      CollectFiles(CollectChunks(m, chunks[..|chunks| - 1], keep, entry), last, last.files, keep, entry)
  }

  /** The entry builder of one processAssets pass. */
  function PassEntry(pass: BuildPass): EntryBuilder {
    (c: Chunk, file: string) => FileEntry(pass, c, file)
  }

  /** One step of the inner loop on a script file: its entry is set in the chunk's map. */
  lemma AddFileEntry(m: ChunkFiles, c: Chunk, file: string, pass: BuildPass)
    requires Extname(SplitQuery(file).0) == ".js"
    ensures AddFile(m, c, file, IsScriptFile, PassEntry(pass)) ==
      m[c.id := (if c.id in m then m[c.id] else map[])[file := FileEntry(pass, c, file)]]
  {
  }

  /** One step of the inner loop on any other file: nothing changes. */
  lemma AddFileSkip(m: ChunkFiles, c: Chunk, file: string, pass: BuildPass)
    requires Extname(SplitQuery(file).0) != ".js"
    ensures AddFile(m, c, file, IsScriptFile, PassEntry(pass)) == m
  {
  }

  /**
   * After the inner loop, the entry of `(id, file)` is the fresh one exactly
   * when `file` is a kept file of `c` and `id` is `c`'s; every other entry is as before.
   */
  lemma {:induction false} CollectFilesAt(m: ChunkFiles, c: Chunk, files: seq<string>, keep: FileFilter, entry: EntryBuilder,
                                          id: string, file: string)
    ensures Find(CollectFiles(m, c, files, keep, entry), id, file) ==
      if id == c.id && file in files && keep(file) then Some(entry(c, file)) else Find(m, id, file)
    decreases |files|
  {
    if files != [] {
      var init := files[..|files| - 1];
      var last := files[|files| - 1];
      CollectFilesAt(m, c, init, keep, entry, id, file);
      assert file in files <==> file in init || file == last by {
        assert files == init + [last];
      }
    }
  }

  /** The inner loop adds the chunk's map exactly when the chunk has a kept file. */
  lemma {:induction false} CollectFilesKeys(m: ChunkFiles, c: Chunk, files: seq<string>, keep: FileFilter, entry: EntryBuilder)
    ensures CollectFiles(m, c, files, keep, entry).Keys ==
      m.Keys + (if exists i :: 0 <= i < |files| && keep(files[i]) then {c.id} else {})
    decreases |files|
  {
    if files != [] {
      var init := files[..|files| - 1];
      CollectFilesKeys(m, c, init, keep, entry);
      if exists i :: 0 <= i < |init| && keep(init[i]) {
        var i :| 0 <= i < |init| && keep(init[i]);
        assert files[i] == init[i];
      }
      if exists i :: 0 <= i < |files| && keep(files[i]) {
        var i :| 0 <= i < |files| && keep(files[i]);
        if i < |init| { assert init[i] == files[i]; }
      }
    }
  }

  /** Chunks are told apart by their id. */
  predicate DistinctIds(chunks: seq<Chunk>) {
    forall i, j :: 0 <= i < |chunks| && 0 <= j < |chunks| && chunks[i].id == chunks[j].id ==> chunks[i] == chunks[j]
  }

  /** `file` is a kept file of some chunk with this id. */
  predicate Touched(chunks: seq<Chunk>, keep: FileFilter, id: string, file: string) {
    exists i :: 0 <= i < |chunks| && chunks[i].id == id && file in chunks[i].files && keep(file)
  }

  /**
   * After the pass, every kept file of every chunk has its own fresh entry
   * in its chunk's map, and every entry no chunk names is as before.
   */
  lemma {:induction false} CollectChunksAt(m: ChunkFiles, chunks: seq<Chunk>, keep: FileFilter, entry: EntryBuilder,
                                           id: string, file: string)
    requires DistinctIds(chunks)
    ensures forall i :: 0 <= i < |chunks| && chunks[i].id == id && file in chunks[i].files && keep(file) ==>
      Find(CollectChunks(m, chunks, keep, entry), id, file) == Some(entry(chunks[i], file))
    ensures !Touched(chunks, keep, id, file) ==> Find(CollectChunks(m, chunks, keep, entry), id, file) == Find(m, id, file)
    decreases |chunks|
  {
    if chunks != [] {
      var init := chunks[..|chunks| - 1];
      var last := chunks[|chunks| - 1];
      assert DistinctIds(init) by {
        forall i, j | 0 <= i < |init| && 0 <= j < |init| && init[i].id == init[j].id ensures init[i] == init[j] {
          assert init[i] == chunks[i] && init[j] == chunks[j];
        }
      }
      CollectChunksAt(m, init, keep, entry, id, file);
      CollectFilesAt(CollectChunks(m, init, keep, entry), last, last.files, keep, entry, id, file);
      forall i | 0 <= i < |chunks| && chunks[i].id == id && file in chunks[i].files && keep(file)
        ensures Find(CollectChunks(m, chunks, keep, entry), id, file) == Some(entry(chunks[i], file))
      {
        if i < |init| {
          assert init[i] == chunks[i];
          if id == last.id { assert chunks[i] == last; }
        }
      }
    }
  }

  /** Every recorded entry is filed under its own file name, which passes the filter. */
  predicate EntriesConsistent(m: ChunkFiles, keep: FileFilter) {
    forall id, file :: id in m && file in m[id] ==>
      m[id][file].buildInfo.file == file && keep(m[id][file].buildInfo.file)
  }

  /** The inner loop keeps the entries consistent when every built entry names its file. */
  lemma CollectFilesConsistent(m: ChunkFiles, c: Chunk, files: seq<string>, keep: FileFilter, entry: EntryBuilder)
    requires EntriesConsistent(m, keep)
    requires forall f :: keep(f) ==> entry(c, f).buildInfo.file == f
    ensures EntriesConsistent(CollectFiles(m, c, files, keep, entry), keep)
  {
    var r: ChunkFiles := CollectFiles(m, c, files, keep, entry);
    forall id: string, file: string | id in r && file in r[id]
      ensures r[id][file].buildInfo.file == file && keep(file)
    {
      CollectFilesAt(m, c, files, keep, entry, id, file);
      assert Find(r, id, file) == Some(r[id][file]);
      if id == c.id && file in files && keep(file) {
        assert r[id][file] == entry(c, file);
      } else {
        assert id in m && file in m[id] && r[id][file] == m[id][file];
      }
    }
  }

  /** The pass keeps the entries consistent. */
  lemma {:induction false} CollectChunksConsistent(m: ChunkFiles, chunks: seq<Chunk>, keep: FileFilter, entry: EntryBuilder)
    requires EntriesConsistent(m, keep)
    requires forall c, f :: keep(f) ==> entry(c, f).buildInfo.file == f
    ensures EntriesConsistent(CollectChunks(m, chunks, keep, entry), keep)
    decreases |chunks|
  {
    if chunks != [] {
      var last := chunks[|chunks| - 1];
      CollectChunksConsistent(m, chunks[..|chunks| - 1], keep, entry);
      CollectFilesConsistent(CollectChunks(m, chunks[..|chunks| - 1], keep, entry), last, last.files, keep, entry);
    }
  }

  /** The ids of the chunks of one pass. */
  function ChunkIds(chunks: seq<Chunk>): (ids: set<string>)
    ensures forall i :: 0 <= i < |chunks| ==> chunks[i].id in ids
    ensures forall id :: id in ids ==> exists i :: 0 <= i < |chunks| && chunks[i].id == id
  {
    set i | 0 <= i < |chunks| :: chunks[i].id
  }

  /**
   * The chunk maps a pass starts from. A compilation's chunks are new
   * objects, so the WeakMap holds no map for any of them yet; maps under
   * other ids are kept.
   */
  function FreshChunks(m: ChunkFiles, chunks: seq<Chunk>): (r: ChunkFiles)
    ensures forall id :: id in r <==> id in m && id !in ChunkIds(chunks)
    ensures forall id :: id in r ==> r[id] == m[id]
  {
    m - ChunkIds(chunks)
  }

  /** The collection step of processAssets: script files only, with the pass's entries, into fresh chunk maps. */
  function ProcessPass(m: ChunkFiles, chunks: seq<Chunk>, pass: BuildPass): ChunkFiles {
    CollectChunks(FreshChunks(m, chunks), chunks, IsScriptFile, PassEntry(pass))
  }

  /**
   * Every script file of an entry chunk is recorded under its chunk with
   * the pass's hash and build time and headers of the raw header's tags.
   */
  lemma ProcessPassRecords(m: ChunkFiles, chunks: seq<Chunk>, pass: BuildPass, i: nat, file: string)
    requires DistinctIds(chunks) && i < |chunks| && file in chunks[i].files && IsScriptFile(file)
    ensures Find(ProcessPass(m, chunks, pass), chunks[i].id, file) == Some(FileEntry(pass, chunks[i], file))
    ensures Find(ProcessPass(m, chunks, pass), chunks[i].id, file).value.buildInfo.hash == pass.hash
    ensures Find(ProcessPass(m, chunks, pass), chunks[i].id, file).value.buildInfo.buildTime == pass.buildTime
    ensures Find(ProcessPass(m, chunks, pass), chunks[i].id, file).value.headers.Keys == pass.raw.Keys
  {
    CollectChunksAt(FreshChunks(m, chunks), chunks, IsScriptFile, PassEntry(pass), chunks[i].id, file);
  }

  /**
   * The map of a chunk of the pass holds exactly that chunk's script files:
   * nothing recorded by an earlier pass under the same id survives.
   */
  lemma ProcessPassChunkMap(m: ChunkFiles, chunks: seq<Chunk>, pass: BuildPass, i: nat, file: string)
    requires DistinctIds(chunks) && i < |chunks|
    ensures Find(ProcessPass(m, chunks, pass), chunks[i].id, file).Some? <==> file in chunks[i].files && IsScriptFile(file)
  {
    var id := chunks[i].id;
    CollectChunksAt(FreshChunks(m, chunks), chunks, IsScriptFile, PassEntry(pass), id, file);
    if !(file in chunks[i].files && IsScriptFile(file)) {
      forall j | 0 <= j < |chunks| && chunks[j].id == id
        ensures !(file in chunks[j].files && IsScriptFile(file))
      {
        assert chunks[j] == chunks[i];
      }
      assert id !in FreshChunks(m, chunks);
    }
  }

  /** Chunks not in the pass keep their entries as they were. */
  lemma ProcessPassFrame(m: ChunkFiles, chunks: seq<Chunk>, pass: BuildPass, id: string, file: string)
    requires DistinctIds(chunks) && id !in ChunkIds(chunks)
    ensures Find(ProcessPass(m, chunks, pass), id, file) == Find(m, id, file)
  {
    CollectChunksAt(FreshChunks(m, chunks), chunks, IsScriptFile, PassEntry(pass), id, file);
  }

  /** The pass keeps every entry filed under its own script file. */
  lemma ProcessPassConsistent(m: ChunkFiles, chunks: seq<Chunk>, pass: BuildPass)
    requires EntriesConsistent(m, IsScriptFile)
    ensures EntriesConsistent(ProcessPass(m, chunks, pass), IsScriptFile)
  {
    CollectChunksConsistent(FreshChunks(m, chunks), chunks, IsScriptFile, PassEntry(pass));
  }

  // ---------------------------------------------------------------------
  // fileValidity and the SSRI cache (UserscriptPlugin.ts:76-93, 190-194)
  // ---------------------------------------------------------------------

  /** `invalidate(file)`: a non-empty tracked file is marked stale; nothing else changes. */
  function Invalidated(validity: map<string, bool>, file: Option<string>): (r: map<string, bool>)
    ensures r.Keys == validity.Keys
    ensures forall k :: k in validity && Some(k) != file ==> r[k] == validity[k]
    ensures file.Some? && file.value != "" && file.value in validity ==> !r[file.value]
    ensures file.None? || file.value == "" ==> r == validity
  {
    if file.Some? && file.value != "" && file.value in validity then validity[file.value := false]
    else validity
  }

  lemma InvalidatedIdempotent(validity: map<string, bool>, file: Option<string>)
    ensures Invalidated(Invalidated(validity, file), file) == Invalidated(validity, file)
  {
  }

  /** A file counts as fresh only when it is mapped to true; absent and stale files are reloaded. */
  predicate IsFresh(validity: map<string, bool>, file: string) {
    file in validity && validity[file]
  }

  /** After invalidation no file named by the event is fresh, and other files keep their freshness. */
  lemma InvalidatedFreshness(validity: map<string, bool>, file: string, other: string)
    requires file != ""
    ensures !IsFresh(Invalidated(validity, Some(file)), file)
    ensures other != file ==> (IsFresh(Invalidated(validity, Some(file)), other) <==> IsFresh(validity, other))
  {
  }

  const SsriCacheFile := ".ssri-cache.json"

  /** The SSRI cache file: `ssri.cache` when it is a string, else the default under the context; none when SSRI is off. */
  function SsriCachePath(opt: SsriOption, context: string): (p: Option<string>)
    ensures p.None? <==> opt.SsriOff?
    ensures opt.SsriWith? && opt.cache.Some? ==> p == opt.cache
    ensures (opt.SsriDefault? || opt == SsriWith(None)) ==> p.Some? && EndsWith(p.value, SsriCacheFile)
  {
    match opt
    case SsriOff => None
    case SsriWith(Some(path)) => Some(path)
    case _ => Some(Join(context, SsriCacheFile))
  }

  lemma PairKeysSnoc(pairs: seq<(string, string)>)
    requires pairs != []
    ensures PairKeys(pairs) == PairKeys(pairs[..|pairs| - 1]) + {pairs[|pairs| - 1].0}
  {
    var init := pairs[..|pairs| - 1];
    forall k | k in PairKeys(pairs) ensures k in PairKeys(init) + {pairs[|pairs| - 1].0} {
      var i :| 0 <= i < |pairs| && pairs[i].0 == k;
      if i < |init| { assert init[i].0 == k; }
    }
    forall k | k in PairKeys(init) ensures k in PairKeys(pairs) {
      var i :| 0 <= i < |init| && init[i].0 == k;
      assert pairs[i].0 == k;
    }
  }

  /** `new Map(pairs)`: later pairs overwrite earlier ones. */
  function PairsToMap(pairs: seq<(string, string)>): (m: map<string, string>)
    ensures m.Keys == PairKeys(pairs)
    decreases |pairs|
  {
    if pairs == [] then map[]
    else
      PairKeysSnoc(pairs);
      PairsToMap(pairs[..|pairs| - 1])[pairs[|pairs| - 1].0 := pairs[|pairs| - 1].1]
  }

  /** The value of a key is that of its last pair. */
  lemma {:induction false} PairsToMapLastWins(pairs: seq<(string, string)>, i: nat)
    requires i < |pairs|
    requires forall j :: i < j < |pairs| ==> pairs[j].0 != pairs[i].0
    ensures pairs[i].0 in PairsToMap(pairs) && PairsToMap(pairs)[pairs[i].0] == pairs[i].1
    decreases |pairs|
  {
    if i < |pairs| - 1 {
      var init := pairs[..|pairs| - 1];
      PairsToMapLastWins(init, i);
      assert init[i] == pairs[i];
    }
  }
}

=== FILE: types.dfy ===
/**
 * Shapes of types/index.ts and types/schema/userscript.ts used by the
 * plugin: the package descriptor, the normalised package info, the per-file
 * build info, the plugin options and the chunks of a compilation.
 */
module Types {
  import opened Wrappers
  import opened HeaderSchema

  /** The `bugs` field of package.json: absent, a string, or an object with maybe a string `url`. */
  datatype Bugs = NoBugs | BugsText(s: string) | BugsObject(url: Option<string>)

  /** The fields of package.json the plugin reads; `None` is an absent field. */
  datatype PackageJson = PackageJson(
    name: Option<string>,
    version: Option<string>,
    description: Option<string>,
    author: Option<string>,
    homepage: Option<string>,
    bugs: Bugs)

  datatype PackageInfo = PackageInfo(
    root: string,
    name: string,
    version: string,
    description: string,
    author: string,
    homepage: string,
    bugs: string)

  /** BuildInfo: the package info, the compilation's hash and time, and the file's own fields. */
  datatype BuildInfo = BuildInfo(
    pkg: PackageInfo,
    hash: string,
    buildTime: nat,
    chunkHash: string,
    chunkName: string,
    file: string,
    filename: string,
    basename: string,
    query: string)  // the raw query text, `?` included

  /** `root`: `true` or absent searches, `false` disables, a string is the directory. */
  datatype RootOption = SearchRoot | NoRoot | RootAt(path: string)

  /** `ssri`: `false` or absent, `true`, or an options object whose `cache` may be a string. */
  datatype SsriOption = SsriOff | SsriDefault | SsriWith(cache: Option<string>)

  datatype PublicUrl =
    | NoPublicUrl
    | PublicUrlBase(url: string)
    | PublicUrlParts(downloadUrl: Option<string>, updateUrl: Option<string>)

  /** `headers`: absent, a path to a JSON file, or an inline header object. */
  datatype HeadersOption = HeadersDefault | HeadersAt(path: string) | HeadersInline(header: Header)

  datatype UserscriptOptions = UserscriptOptions(
    root: RootOption,
    ssri: SsriOption,
    publicUrl: PublicUrl,
    headers: HeadersOption)

  /** An entry chunk of a compilation, identified by `id`, with its output files in order. */
  datatype Chunk = Chunk(id: string, hash: Option<string>, name: string, files: seq<string>)

  /** What the plugin records for each output file. */
  datatype FileInfo = FileInfo(buildInfo: BuildInfo, headers: Header)
}

=== FILE: utils.dfy ===
/**
 * Template interpolation of lib/utils.ts.
 *
 * The source is one `String.replace` with the global regular expression
 * `(\\?)(\[([a-zA-Z]+)\])`: the matcher finds the leftmost match, the callback
 * replaces it, and the scan resumes after it. `Lex` is that scan: it splits a
 * template into literal characters, tokens `[word]` and escaped tokens
 * `\[word]`. `Render` is the callback applied to every piece, and
 * `Interpolate` is the two together.
 */
module Utils {
  import opened Wrappers

  predicate IsAsciiLetter(c: char) {
    'a' <= c <= 'z' || 'A' <= c <= 'Z'
  }

  /** What `[a-zA-Z]+` matches: a non-empty word of ASCII letters. */
  predicate IsWord(w: string) {
    |w| > 0 && forall i :: 0 <= i < |w| ==> IsAsciiLetter(w[i])
  }

  /** The bracketed form `[w]` of a word. */
  function Bracketed(w: string): string {
    "[" + w + "]"
  }

  /** Length of the longest prefix of `s` made of ASCII letters. */
  function LetterRun(s: string): (n: nat)
    ensures n <= |s|
    ensures forall i :: 0 <= i < n ==> IsAsciiLetter(s[i])
    ensures n < |s| ==> !IsAsciiLetter(s[n])
  {
    if s != [] && IsAsciiLetter(s[0]) then 1 + LetterRun(s[1..]) else 0
  }

  /** The word of the token `[word]` that `s` starts with, if it starts with one. */
  function TokenAt(s: string): (r: Option<string>)
    ensures r.Some? ==> IsWord(r.value) && |r.value| + 2 <= |s|
    ensures r.Some? ==> s[..|r.value| + 2] == Bracketed(r.value)
  {
    if |s| > 0 && s[0] == '[' then
      var n := LetterRun(s[1..]);
      if 0 < n && n + 1 < |s| && s[n + 1] == ']' then Some(s[1..n + 1]) else None
    else None
  }

  /** A piece of a template, as the global regular expression cuts it. */
  datatype Piece =
    | Literal(c: char)       // a character that starts no match
    | Token(word: string)    // `[word]`
    | Escaped(word: string)  // `\[word]`

  /** The template text a piece was cut from. */
  function Source(p: Piece): string {
    match p
    case Literal(c) => [c]
    case Token(w) => Bracketed(w)
    case Escaped(w) => "\\" + Bracketed(w)
  }

  /** Concatenation of the source texts of a sequence of pieces. */
  function Unlex(ps: seq<Piece>): string {
    if ps == [] then "" else Source(ps[0]) + Unlex(ps[1..])
  }

  predicate WellFormed(p: Piece) {
    match p
    case Literal(_) => true
    case Token(w) => IsWord(w)
    case Escaped(w) => IsWord(w)
  }

  /** The left-to-right scan of the global regular expression over `s`. */
  function Lex(s: string): (ps: seq<Piece>)
    ensures forall i :: 0 <= i < |ps| ==> WellFormed(ps[i])
    decreases |s|
  {
    if s == [] then []
    else if s[0] == '\\' && TokenAt(s[1..]).Some? then
      var w := TokenAt(s[1..]).value;
      [Escaped(w)] + Lex(s[|w| + 3..])
    else if TokenAt(s).Some? then
      var w := TokenAt(s).value;
      [Token(w)] + Lex(s[|w| + 2..])
    else
      [Literal(s[0])] + Lex(s[1..])
  }

  /**
   * The replacement callback: an unescaped token whose word is a key of
   * `info` becomes the value's string form; anything else matched is kept
   * without its escaping backslash.
   */
  function RenderPiece(p: Piece, info: map<string, string>): string {
    match p
    case Literal(c) => [c]
    case Token(w) => if w in info then info[w] else Bracketed(w)
    case Escaped(w) => Bracketed(w)
  }

  function Render(ps: seq<Piece>, info: map<string, string>): string {
    if ps == [] then "" else RenderPiece(ps[0], info) + Render(ps[1..], info)
  }

  /**
   * `interpolate(tpl, info)`. `info` holds the string form of every value
   * (`String(info[token])` in the source).
   */
  function Interpolate(tpl: string, info: map<string, string>): string {
    Render(Lex(tpl), info)
  }

  /** The number a string of decimal digits denotes, most significant digit first. */
  function DigitsValue(s: string): int {
    if s == [] then 0 else 10 * DigitsValue(s[..|s| - 1]) + (s[|s| - 1] as int - '0' as int)
  }

  /**
   * `String(n)` for a non-negative integer: the digits that denote `n`,
   * without leading zeros.
   */
  function DecimalString(n: nat): (s: string)
    ensures |s| > 0
    ensures forall i :: 0 <= i < |s| ==> '0' <= s[i] <= '9'
    ensures DigitsValue(s) == n
    ensures |s| > 1 ==> s[0] != '0'
    decreases n
  {
    var d := [((n % 10) + '0' as int) as char];
    if n < 10 then d
    else
      var s := DecimalString(n / 10) + d;
      assert s[..|s| - 1] == DecimalString(n / 10);
      s
  }

  // ---------------------------------------------------------------------
  // Properties of the scan
  // ---------------------------------------------------------------------

  lemma UnlexCons(p: Piece, ps: seq<Piece>)
    ensures Unlex([p] + ps) == Source(p) + Unlex(ps)
  {
    assert ([p] + ps)[1..] == ps;
  }

  /** The first piece of a non-empty template and the text after it. */
  lemma LexFront(s: string) returns (p: Piece, rest: string)
    requires s != []
    ensures Lex(s) == [p] + Lex(rest) && s == Source(p) + rest && |rest| < |s|
  {
    if s[0] == '\\' && TokenAt(s[1..]).Some? {
      var w := TokenAt(s[1..]).value;
      p, rest := Escaped(w), s[|w| + 3..];
      assert s[1..][..|w| + 2] == s[1..|w| + 3];
      assert s == [s[0]] + s[1..|w| + 3] + rest;
    } else if TokenAt(s).Some? {
      var w := TokenAt(s).value;
      p, rest := Token(w), s[|w| + 2..];
      assert s == s[..|w| + 2] + rest;
    } else {
      p, rest := Literal(s[0]), s[1..];
      assert s == [s[0]] + s[1..];
    }
  }

  /** Lexing loses nothing: the pieces spell the template back. */
  lemma {:induction false} LexRoundTrip(s: string)
    ensures Unlex(Lex(s)) == s
    decreases |s|
  {
    if s != [] {
      var p, rest := LexFront(s);
      LexRoundTrip(rest);
      UnlexCons(p, Lex(rest));
    }
  }

  lemma {:induction false} LetterRunOfWord(w: string, rest: string)
    requires IsWord(w)
    ensures LetterRun(w + "]" + rest) == |w|
    decreases |w|
  {
    var s := w + "]" + rest;
    if |w| > 1 {
      assert s[1..] == w[1..] + "]" + rest;
      LetterRunOfWord(w[1..], rest);
    } else {
      assert s[1..] == "]" + rest;
    }
  }

  /** A bracketed word is always recognised as a token. */
  lemma TokenAtBracketed(w: string, rest: string)
    requires IsWord(w)
    ensures TokenAt(Bracketed(w) + rest) == Some(w)
  {
    var s := Bracketed(w) + rest;
    assert s[1..] == w + "]" + rest;
    LetterRunOfWord(w, rest);
    assert s[1..|w| + 1] == w;
  }

  lemma {:induction false} RenderAppend(a: seq<Piece>, b: seq<Piece>, info: map<string, string>)
    ensures Render(a + b, info) == Render(a, info) + Render(b, info)
  {
    if a == [] {
      assert a + b == b;
    } else {
      assert (a + b)[1..] == a[1..] + b;
      RenderAppend(a[1..], b, info);
    }
  }

  // ---------------------------------------------------------------------
  // Properties of interpolation
  // ---------------------------------------------------------------------

  /**
   * An unescaped `[w]` is replaced by `info[w]` when `w` is a key and kept
   * verbatim otherwise; the rest of the template is interpolated on its own.
   */
  lemma InterpolateToken(w: string, rest: string, info: map<string, string>)
    requires IsWord(w)
    ensures w in info ==> Interpolate(Bracketed(w) + rest, info) == info[w] + Interpolate(rest, info)
    ensures w !in info ==> Interpolate(Bracketed(w) + rest, info) == Bracketed(w) + Interpolate(rest, info)
  {
    var s := Bracketed(w) + rest;
    TokenAtBracketed(w, rest);
    assert s[0] != '\\';
    assert s[|w| + 2..] == rest;
  }

  /**
   * An escaped `\[w]` becomes `[w]`: exactly the one backslash is dropped and
   * the word is not looked up, whether or not it is a key of `info`.
   */
  lemma InterpolateEscaped(w: string, rest: string, info: map<string, string>)
    requires IsWord(w)
    ensures Interpolate("\\" + Bracketed(w) + rest, info) == Bracketed(w) + Interpolate(rest, info)
  {
    var s := "\\" + Bracketed(w) + rest;
    assert s[1..] == Bracketed(w) + rest;
    TokenAtBracketed(w, rest);
    assert s[|w| + 3..] == rest;
  }

  /** No match starts anywhere in `s`. */
  predicate TokenFree(s: string) {
    forall i :: 0 <= i < |s| ==> TokenAt(s[i..]).None?
  }

  /** A template in which no token starts is returned unchanged. */
  lemma {:induction false} InterpolateTokenFree(s: string, info: map<string, string>)
    requires TokenFree(s)
    ensures Interpolate(s, info) == s
    decreases |s|
  {
    if s != [] {
      assert TokenAt(s[0..]).None?;
      assert s[0..] == s;
      assert s[1..][0..] == s[1..];
      if s[0] == '\\' && |s| > 1 {
        assert TokenAt(s[1..]).None?;
      }
      forall i | 0 <= i < |s[1..]| ensures TokenAt(s[1..][i..]).None? {
        assert s[1..][i..] == s[i + 1..];
      }
      InterpolateTokenFree(s[1..], info);
    }
  }

  /** Inserted values are not scanned again: a value holding `[x]` is kept literally. */
  lemma InterpolateNoRescan()
    ensures Interpolate("[a]", map["a" := "[b]", "b" := "x"]) == "[b]"
  {
    var info := map["a" := "[b]", "b" := "x"];
    assert IsWord("a");
    InterpolateToken("a", "", info);
    assert Bracketed("a") + "" == "[a]";
    assert Interpolate("", info) == "";
  }

  /** A character that is neither `\\` nor `[` is copied, whatever follows it. */
  lemma InterpolatePlain(c: char, rest: string, info: map<string, string>)
    requires c != '\\' && c != '['
    ensures Interpolate([c] + rest, info) == [c] + Interpolate(rest, info)
  {
    var s := [c] + rest;
    assert s[1..] == rest;
    assert Lex(s) == [Literal(c)] + Lex(rest);
  }

  /**
   * A `\\` or `[` that starts no match is copied like any other character:
   * the scan moves on by one and may find a token right after it.
   */
  lemma InterpolateLoneChar(s: string, info: map<string, string>)
    requires s != [] && TokenAt(s).None?
    requires !(s[0] == '\\' && TokenAt(s[1..]).Some?)
    ensures Interpolate(s, info) == [s[0]] + Interpolate(s[1..], info)
  {
  }

  /** A backslash before a non-token is kept: `\\x` stays `\\x`. */
  lemma InterpolateLoneBackslash(info: map<string, string>)
    ensures Interpolate("\\x", info) == "\\x"
  {
    var s := "\\x";
    assert s[1..] == "x" && TokenAt("x").None?;
    InterpolateLoneChar(s, info);
    InterpolatePlain('x', "", info);
    assert "x" == ['x'] + "";
  }

  /** In `[[a]` the first `[` starts no token and the token `[a]` after it is replaced. */
  lemma InterpolateDoubleBracket()
    ensures Interpolate("[[a]", map["a" := "v"]) == "[v"
  {
    var info := map["a" := "v"];
    var s := "[[a]";
    assert s[1..] == "[a]";
    assert LetterRun(s[1..]) == 0;
    InterpolateLoneChar(s, info);
    assert IsWord("a");
    InterpolateToken("a", "", info);
    assert Bracketed("a") + "" == "[a]";
    assert Interpolate("", info) == "";
  }

  /**
   * Tokens are replaced independently of each other: with both words known,
   * `[n]-[v]` becomes the value of `n`, a dash and the value of `v`.
   */
  lemma InterpolateIndependentTokens(n: string, v: string, info: map<string, string>)
    requires IsWord(n) && IsWord(v) && n in info && v in info
    ensures Interpolate(Bracketed(n) + "-" + Bracketed(v), info) == info[n] + "-" + info[v]
  {
    var tail := ['-'] + Bracketed(v);
    calc {
      Interpolate(Bracketed(n) + "-" + Bracketed(v), info);
      { assert Bracketed(n) + "-" + Bracketed(v) == Bracketed(n) + tail; }
      Interpolate(Bracketed(n) + tail, info);
      { InterpolateToken(n, tail, info); }
      info[n] + Interpolate(tail, info);
      { InterpolatePlain('-', Bracketed(v), info); }
      info[n] + ['-'] + Interpolate(Bracketed(v), info);
      { InterpolateToken(v, "", info); assert Bracketed(v) + "" == Bracketed(v); }
      info[n] + ['-'] + info[v] + Interpolate("", info);
    }
  }

  /** An unknown token stays as it is. */
  lemma InterpolateUnknown()
    ensures Interpolate("[unknown]", map[]) == "[unknown]"
  {
    assert IsWord("unknown");
    InterpolateToken("unknown", "", map[]);
    assert Bracketed("unknown") + "" == Bracketed("unknown");
    assert Bracketed("unknown") == "[unknown]";
    assert Interpolate("", map[]) == "";
  }

  /**
   * A bracketed text that is not a word (and holds no bracket or backslash)
   * is not a token, so it passes through unchanged.
   */
  lemma InterpolateNotAWord(x: string, info: map<string, string>)
    requires !IsWord(x)
    requires forall i :: 0 <= i < |x| ==> x[i] != '[' && x[i] != ']'
    ensures Interpolate("[" + x + "]", info) == "[" + x + "]"
  {
    var s := "[" + x + "]";
    forall i | 0 <= i < |s| ensures TokenAt(s[i..]).None? {
      if i == 0 {
        assert forall k :: 0 <= k < |x| ==> s[1..][k] == x[k];
        assert s[1..][|x|] == ']';
      } else {
        assert s[i..][0] == s[i];
        if i <= |x| { assert s[i] == x[i - 1]; }
      }
    }
    InterpolateTokenFree(s, info);
  }

  /** Only `[` + letters + `]` is a token: "[]", "[a1]" and "[a-b]" pass through. */
  lemma InterpolateNonTokens(info: map<string, string>)
    ensures Interpolate("[]", info) == "[]"
    ensures Interpolate("[a1]", info) == "[a1]"
    ensures Interpolate("[a-b]", info) == "[a-b]"
  {
    InterpolateNotAWord("", info);
    assert "[a1]" == "[" + "a1" + "]";
    assert !IsAsciiLetter("a1"[1]);
    InterpolateNotAWord("a1", info);
    assert "[a-b]" == "[" + "a-b" + "]";
    assert !IsAsciiLetter("a-b"[1]);
    InterpolateNotAWord("a-b", info);
  }
}

=== FILE: wrappers.dfy ===
/** Option and Result datatypes shared by the other modules. */
module Wrappers {

  datatype Option<+T> = None | Some(value: T) {
    function GetOr(default: T): T {
      match this
      case Some(v) => v
      case None => default
    }
  }

  /** A value or the error the source throws instead of returning one. */
  datatype Result<+T, +E> = Ok(value: T) | Err(error: E)

  /** Success or the error of an operation that only changes state. */
  datatype Outcome<+E> = Pass | Fail(error: E)
}
